=== FILE: README.md ===
# BookR book-recommendation app: a functional model

BookR is a small React application. Members recommend books and tag them, administrators curate a list of system tags and manage users, and visitors search the public catalog. All of its data lives in an in-memory mock store (`services/api.ts`). This project models, in Dafny, that store and the rules its components build on top of it:

- **The store** (`Api`, api.dfy):
  - The store is a value holding users, books and system tags. Every store call is a function from store to store.
  - The fixture data is the constant `Seed`.
  - The calls are: login by e-mail; registration and administrator-created accounts; listing books; per-user books; prepend-on-add; update by patch, with a "not found" error; delete by id; system tags.
  - `getAllTags` merges tags by lower-cased name, through a model of JavaScript `Map` insertion order (`TagMap`, tag_map.dfy).
- **The book form** (`BookForm`, book_form.dfy):
  - the ISBN shape check;
  - the draft tag list: toggling by id, adding by case-insensitive name, removing by id;
  - adopting fields recognised from a cover image;
  - the ISBN error message;
  - submission to the store.
- **The administrator's tag page** (`TagManagement`): which merged tags are listed as user-generated, and the add and delete handlers.
- **The public search** (`PublicView`): an order-preserving, case-insensitive substring filter over four fields.
- **Statistics** (`Statistics`):
  - books per user, sorted by descending count with a stable sort;
  - the zero-guarded average;
  - the top-ten leaderboard.
- **One book's card** (`BookCard`): the modify permission, the tag preview, the cover fallback and the confirmed delete.
- **The application shell** (`App`):
  - login and logout;
  - which books and users are loaded for whom;
  - which screen each view renders.

Supporting modules:
- `Wrappers`: `Option` and `Result`.
- `Types`: the records of `types.ts`. Their choices are exact: a tag is system or user, a role is user or admin, `coverUrl` is the only optional book field, and each `AIBookInfo` field is independently optional.
- `Text`: `toLowerCase` on ASCII letters, `trim` on the ECMAScript white-space set, and `includes`.
- `Seqs`: order-preserving filter, subsequence, first match and first-match index.

Fresh identifiers (`uuidv4()`), object URLs and the answer of a confirmation dialog are parameters. Each handler is one atomic state transition.

Two behaviours of the code are easy to miss:
- `addSystemTag` in `services/api.ts` neither trims nor rejects a blank name. Only the tag page's handler (`TagManagement.HandleAddTag`) refuses blank input. `Api.AddSystemTag` therefore accepts any name.
- The statistics page sorts with `Array.prototype.sort`, which is stable. `Statistics.SortByCount` is therefore stable, and `Statistics.SortIsStable` proves it.

## Model

| member | source | states |
|---|---|---|
| Api.Login | services/api.ts:77-81 | returns no user exactly when no account has that e-mail (case-sensitive); otherwise returns the first account with exactly that e-mail |
| Api.Register | services/api.ts:83-93 | appends one account with the given profile, role user, the fresh id and an invitation link under the invite prefix; nothing else in the store changes |
| Api.AddUser | services/api.ts:168-177 | like registration, but keeps the supplied role; the account is appended and returned |
| Api.LoginAfterRegister | services/api.ts:77-93 | after registering with an e-mail nobody uses, login with that e-mail returns the new account |
| Api.RegisterKeepsLogins | services/api.ts:77-93 | registering never changes which account an existing e-mail logs in as |
| Api.SeedLogins | services/api.ts:6-27 | the fixture user and the fixture admin log in by their addresses; a case variant of an address does not log in |
| Api.GetUserBooks | services/api.ts:101-104 | a book is returned iff it is in the store and recommended by that user, each as often as the store holds it; the result keeps store order |
| Api.ListBooks | services/api.ts:95-108 | the listed books are the stored books, position by position |
| Api.AddBook | services/api.ts:111-116 | the new book is the data with the fresh id, placed before all previous books, which keep their order; users and tags are unchanged |
| Api.BookPatchLaws | services/api.ts:122 | merging an empty patch changes nothing, and merging the same patch twice equals merging it once |
| Api.UpdateBook | services/api.ts:118-126 | fails with "Book not found" iff no book has the id; otherwise exactly the first book with the id is replaced by its patched copy, which is returned |
| Api.DeleteBook | services/api.ts:128-131 | keeps exactly the books with another id, each as often as before, in order; users and tags are untouched; with the id absent the store is unchanged |
| Api.DeleteAfterAddBook | services/api.ts:111-131 | adding a book under a fresh id and deleting that id restores the store |
| Api.AddBookHeadsUserBooks | services/api.ts:101-116 | after adding a book, its recommender's list is the new book followed by their previous list |
| Api.UpdateUser | services/api.ts:179-187 | fails with "User not found" iff no account has the id; otherwise exactly the first account with the id is patched and returned |
| Api.UserPatchLaws | services/api.ts:183 | merging an empty user patch changes nothing, and merging the same patch twice equals merging it once |
| Api.UpdateUserAt | services/api.ts:179-187 | when a position is the first holding the id, the update patches the account there and nowhere else |
| Api.UpdateUserNoChange | services/api.ts:179-187 | updating an existing account with an empty patch returns that account and leaves the store as it was |
| Api.UpdateUserTwice | services/api.ts:179-187 | repeating an update whose patch keeps the account's id succeeds and changes the store no further |
| Api.DeleteUser | services/api.ts:189-193 | keeps exactly the accounts with another id, each as often as before, in order; books (including the user's) and tags are untouched |
| Api.DeleteAfterAddUser | services/api.ts:168-193 | adding an account under a fresh id and deleting it restores the store |
| Api.BookTags | services/api.ts:141 | a tag is in the flattened list iff some book carries it |
| Api.BookTagsOne | services/api.ts:141 | the flattened tags of a single book are that book's tags, in order |
| Api.BookTagsAppend | services/api.ts:141 | flattening two lists of books gives the first list's tags followed by the second's, which with the single-book case fixes the order of the flattened list |
| Api.GetAllTags | services/api.ts:139-147 | no two result tags share a lower-cased name; every name of the system and book tags is kept and no other; every result tag comes from those inputs; names appear in the order they first occur among the system tags followed by the book tags, and each is the last tag set under that name |
| Api.AddSystemTag | services/api.ts:149-154 | appends one system tag with the name exactly as given, not trimmed and not checked against existing names |
| Api.AddSystemTagAllowsDuplicates | services/api.ts:149-154 | adding an existing system-tag name leaves two system tags with that name |
| Api.DeleteSystemTag | services/api.ts:156-160 | keeps exactly the system tags with another id, each as often as before, in order; no book or user changes |
| Api.DeleteAfterAddSystemTag | services/api.ts:149-160 | adding a system tag under a fresh id and deleting it restores the store |
| TagMap.Set | services/api.ts:144 | `Map.set`: a key already present keeps its place and takes the new value; a new key goes at the end |
| TagMap.Reconcile | services/api.ts:142-146 | one tag per distinct lower-cased name; none lost; ordered by first occurrence of the name; each holds the last tag set under that name |
| TagMap.ReconcileDistinctIsIdentity | services/api.ts:142-146 | tags whose names are already distinct up to case come back unchanged |
| TagMap.ReconcileIdempotent | services/api.ts:142-146 | reconciling twice equals reconciling once |
| TagMap.ReconcileOverride | services/api.ts:143-145 | a book's user tag "fiction" replaces a system tag "Fiction", in the system tag's place |
| BookForm.StripHyphens | components/BookFormModal.tsx:69 | the result holds no hyphen and every other character exactly as often as the input does, in their order |
| BookForm.ValidateIsbn | components/BookFormModal.tsx:67-73 | blank input passes; otherwise it passes iff the text without hyphens is nine digits then a digit/X/x, or thirteen digits |
| BookForm.ValidIsbnCharacters | components/BookFormModal.tsx:69-72 | an accepted non-blank ISBN has 10 or 13 non-hyphen characters, each a digit or X/x |
| BookForm.IsbnWithSpaceRejected | components/BookFormModal.tsx:68-72 | a non-blank ISBN containing a space is rejected, since only hyphens are removed |
| BookForm.IsbnHyphenInsensitive | components/BookFormModal.tsx:69 | inserting a hyphen anywhere in a non-blank ISBN does not change the verdict |
| BookForm.AllDigitsAccepted | components/BookFormModal.tsx:70-71 | any ten or thirteen ASCII digits pass |
| BookForm.HyphenatedDigitsAccepted | components/BookFormModal.tsx:69-71 | two digit groups joined by a hyphen pass when together they have 10 or 13 digits |
| BookForm.IsbnExamples | components/BookFormModal.tsx:68-71 | a thirteen-digit ISBN, the empty string and spaces-only text pass |
| BookForm.WrongLengthRejected | components/BookFormModal.tsx:69-72 | non-blank text without hyphens whose length is neither 10 nor 13 is rejected |
| BookForm.IsbnTooShortExample | components/BookFormModal.tsx:70-72 | five digits are rejected |
| BookForm.IsbnCheckLetterExample | components/BookFormModal.tsx:70 | a lower-case x is accepted as the tenth character |
| BookForm.IsbnCheckDigitNotVerified | components/BookFormModal.tsx:70-72 | two ISBN-10s differing only in the check digit both pass: no checksum is computed |
| BookForm.ToggleTag | components/BookFormModal.tsx:136-142 | the tag's id is present afterwards iff it was absent; if present, every entry with the id is removed and the rest keep their order and multiplicity; if absent, the tag is appended |
| BookForm.ToggleTwiceRestores | components/BookFormModal.tsx:136-142 | toggling an absent tag twice restores the draft |
| BookForm.ToggleMayDuplicateName | components/BookFormModal.tsx:136-142 | toggling goes by id, so a system tag can join a user tag of the same name |
| BookForm.RemoveTag | components/BookFormModal.tsx:162-164 | keeps exactly the entries with another id, each as often as before, in order; with the id absent the draft is unchanged |
| BookForm.AddUserTag | components/BookFormModal.tsx:144-153 | blank input, or a trimmed name some draft tag has up to case, leaves the draft unchanged; otherwise one user tag with the trimmed name and the fresh id is appended |
| BookForm.AddUserTagKeepsNamesDistinct | components/BookFormModal.tsx:144-153 | a draft whose names are distinct up to case stays so, and loses no tag |
| BookForm.AddUserTagIgnoresCase | components/BookFormModal.tsx:145-151 | entering the same name again, in any case and with any padding, adds nothing |
| BookForm.OpenForm | components/BookFormModal.tsx:40-65 | the form shows the edited book's fields and tags, or empty ones; there is no ISBN message, no pending recognition and no chosen file |
| BookForm.SetField | components/BookFormModal.tsx:77 | the named field takes the value; every other field is unchanged |
| BookForm.InputChange | components/BookFormModal.tsx:75-86 | stores the value; for the ISBN field the error is clear iff the value passes the check; an invalid ISBN sets the format message; other fields leave the error as it was; the other fields, the tags, the pending info, the tag input box and the chosen-cover mark are unchanged |
| BookForm.CoverChosen | components/BookFormModal.tsx:88-109 | a chosen file marks the cover; the recognition result is offered iff it exists and has some recognised field; the fields, tags, ISBN message and tag input box are unchanged |
| BookForm.Prefer | components/BookFormModal.tsx:116-119 | a present, non-empty recognised value wins; otherwise the previous value stays |
| BookForm.AdoptAIInfo | components/BookFormModal.tsx:111-129 | without pending info nothing changes; otherwise title/author/publisher/ISBN each prefer the recognised value, publish date and reason stay, a recognised non-empty ISBN clears the error when it passes and sets the recognition warning when it does not, and the pending info is cleared; the tags, the tag input box and the chosen-cover mark are unchanged |
| BookForm.CommitTagInput | components/BookFormModal.tsx:144-153 | blank input changes nothing; otherwise the tag is added by name and the input box is cleared |
| BookForm.OpenFormConsistent | components/BookFormModal.tsx:55-63 | a new form shows no ISBN message and holds a passing ISBN |
| BookForm.InputChangeConsistent | components/BookFormModal.tsx:75-86 | typing preserves: no ISBN message implies the ISBN passes |
| BookForm.AdoptAIInfoConsistent | components/BookFormModal.tsx:111-129 | adopting recognised values preserves that invariant |
| BookForm.OtherHandlersConsistent | components/BookFormModal.tsx:88-164 | cover choice, tag input, toggle and remove preserve that invariant |
| BookForm.CoverUrlFor | components/BookFormModal.tsx:175 | the chosen file's URL, else the edited book's non-empty cover, else a placeholder image; the cover is empty only for a chosen file with an empty URL |
| BookForm.Payload | components/BookFormModal.tsx:177-183 | the payload carries the form's six fields, the draft tags, the given cover, and the current user's id and name as recommender |
| BookForm.FullPatch | components/BookFormModal.tsx:187 | merging the payload into any stored book yields the payload with the stored book's id |
| BookForm.Submit | components/BookFormModal.tsx:166-199 | blocked by the browser iff the title, author or reason is empty; otherwise refused iff an ISBN message shows; a new book is added at the front with the fresh id; an edit replaces the first book with that id in place and fails iff the book is gone; the saved book holds the form's fields, the draft tags, the cover chosen by `CoverUrlFor` and the current user as recommender; users and system tags are unchanged |
| BookForm.RequiredFieldsGate | components/BookFormModal.tsx:234-273 | the browser stops a submit exactly when the title, author or reason input is the empty string; the publisher is not required |
| BookForm.SavedIsbnValid | components/BookFormModal.tsx:168-171 | from a consistent form, a saved book's ISBN passes the check |
| BookForm.AdminEditTakesOverRecommendation | components/BookFormModal.tsx:181-187 | an administrator saving another user's book, with the required fields filled, with no ISBN message, for a book still in the store, becomes its recommender |
| BookForm.EditKeepsCover | components/BookFormModal.tsx:175-187 | saving an edit without choosing a file keeps the book's non-empty cover |
| BookForm.NewBookGetsPlaceholder | components/BookFormModal.tsx:175-189 | a new book with the required fields filled, saved without a chosen file, is stored with the placeholder image for the token |
| BookForm.SavedCoverShown | components/BookFormModal.tsx:175-189 | with a non-empty object URL the cover sent is never empty, so a new book's card shows exactly that cover |
| TagManagement.UserGeneratedTags | components/TagManagement.tsx:16-19 | a subsequence of the merged tags; every entry is a user tag whose lower-cased name is no system tag's; every such merged tag is included, as often as it occurs |
| TagManagement.FilterKeepsDistinct | components/TagManagement.tsx:18 | filtering tags with distinct lower-cased names keeps them distinct |
| TagManagement.UserGeneratedFromBooks | components/TagManagement.tsx:16-19 | on the store's merged tags, each listed user tag is carried by some book, and the listed names are distinct up to case |
| TagManagement.SystemNameHidesUserTag | components/TagManagement.tsx:17-18 | a user tag whose name equals a system tag's up to case is not listed |
| Text.Trim | components/TagManagement.tsx:23-26 | the trimmed text is empty iff the input is all white space; otherwise it starts and ends with a non-space; the input is the trimmed text with only white space before and after it |
| Text.TrimPadded | components/TagManagement.tsx:23-26 | trimming white space around a text that starts and ends with a non-space gives back exactly that text, so the contract of `Trim` fixes its result |
| TagManagement.HandleAddTag | components/TagManagement.tsx:21-26 | blank input makes no call; otherwise the call carries the trimmed name, which is non-empty |
| TagManagement.AddTag | components/TagManagement.tsx:21-35 | blank input leaves the store unchanged; otherwise one system tag with the trimmed name is appended; books and users are unchanged |
| TagManagement.AddedNameIsSystem | components/TagManagement.tsx:16-26 | after adding a name, no tag with that name up to case is listed as user-generated |
| TagManagement.HandleDeleteTag | components/TagManagement.tsx:37-47 | without confirmation the store is unchanged; with it, the result is the store's system-tag deletion: exactly the system tags with that id are removed |
| PublicView.EmptyTermMatches | components/PublicView.tsx:19-24 | every book matches the empty term |
| PublicView.SearchBooks | components/PublicView.tsx:14-25 | the empty term returns the list unchanged; the result is a subsequence of the list; a book is kept, as often as the list has it, iff the lower-cased term is in its lower-cased title, author, recommender name or a tag name |
| PublicView.SearchCaseInsensitive | components/PublicView.tsx:18 | terms equal up to case give the same result |
| PublicView.SearchIdempotent | components/PublicView.tsx:19-24 | searching the result again with the same term changes nothing |
| PublicView.SpacesAreAQuery | components/PublicView.tsx:15-18 | a term of one space is not treated as empty: a book with no space in any field is excluded |
| PublicView.TagOnlyMatch | components/PublicView.tsx:23 | a term found only in a tag name still finds the book |
| PublicView.TitleExample | components/PublicView.tsx:18-20 | "GO" finds "The Go Programming Language" |
| PublicView.TagExample | components/PublicView.tsx:23 | "scifi" finds a book tagged "SciFi" |
| Statistics.CountFor | components/Statistics.tsx:15 | a user's count is 0 iff no book is theirs, is the number of books when all are theirs, and never exceeds the number of books |
| Statistics.CountCons | components/Statistics.tsx:15 | one more book adds one to exactly its recommender's count |
| Statistics.PerUser | components/Statistics.tsx:13-15 | one entry per user, in user order, with the user's name and the number of books recommended by their id |
| Statistics.Insert | components/Statistics.tsx:16 | inserting adds exactly one entry and keeps a descending list descending |
| Statistics.SortByCount | components/Statistics.tsx:16 | the result is a permutation of the input ordered by non-increasing count |
| Statistics.SortIsStable | components/Statistics.tsx:16 | entries with equal counts keep their relative order |
| Statistics.SortKeepsSum | components/Statistics.tsx:16 | sorting keeps the total of the counts |
| Statistics.Aggregate | components/Statistics.tsx:12-23 | user and book counts are the list lengths; the entries are the per-user entries, permuted, descending, and stable among ties |
| Statistics.EveryUserListed | components/Statistics.tsx:13-16 | every user appears with their name and book count |
| Statistics.PerUserWithinBooks | components/Statistics.tsx:13-15 | with distinct user ids, the per-user counts add up to at most the number of books |
| Statistics.CountsWithinBooks | components/Statistics.tsx:13-22 | with distinct user ids, the listed counts add up to at most the book count |
| Statistics.AveragePerUser | components/Statistics.tsx:43 | 0 with no users; otherwise the average times the user count is the book count |
| Statistics.EmptyAggregate | components/Statistics.tsx:18-43 | no users and no books give zero counts, an empty list and an average of 0 |
| Statistics.Leaderboard | components/Statistics.tsx:50 | at most the first ten entries, in order; all of them when there are ten or fewer |
| Statistics.LeaderboardDominates | components/Statistics.tsx:16-50 | on the sorted list, no one left off the leaderboard has more books than anyone on it |
| BookCard.CanModify | components/BookCard.tsx:15-17 | holds iff a user is logged in who recommended the book or is an administrator; never without a user |
| BookCard.ShowControls | components/BookCard.tsx:41 | edit and delete appear iff the user may modify and both callbacks are present |
| BookCard.PermissionByRole | components/BookCard.tsx:15-17 | an administrator may modify every book; a plain user exactly their own |
| BookCard.TagPreview | components/BookCard.tsx:56 | at most the first three tags, in order; all when there are three or fewer |
| BookCard.PlaceholderCover | components/BookCard.tsx:37 | the placeholder address embeds the seed after the image-service prefix |
| BookCard.CoverSrc | components/BookCard.tsx:37 | a present, non-empty cover URL is used; otherwise the placeholder seeded with the book's id; never empty |
| BookCard.HandleDelete | components/BookCard.tsx:19-31 | unconfirmed: nothing happens; confirmed: the book is deleted and the list refreshed iff a refresh callback exists; users and tags are unchanged |
| App.HomeView | App.tsx:24 | administrators land on the admin view, plain users on the dashboard |
| App.HandleLogin | App.tsx:20-28 | a failed login changes nothing; a successful one sets the user and moves to their home view |
| App.HandleLogout | App.tsx:30-33 | clears the user and returns to the public view |
| App.SwitchToRegister | App.tsx:73 | the login form's link opens the registration view; user, books and user list stay |
| App.RegisterSucceeded | App.tsx:75 | a successful registration opens the login view; user, books and user list stay |
| App.HeaderClick | components/Header.tsx:11-58 | the title leads a user to their home view and a visitor to the public view; the admin button works only for an administrator, logout only for a user, login and registration only for a visitor; nothing else changes |
| App.InitialConsistent | App.tsx:14-15 | the initial session (nobody logged in, public view) satisfies the session invariant: dashboard only for a plain user, admin view only for an administrator, login and registration only for a visitor |
| App.TransitionsKeepConsistent | App.tsx:20-88 | login, logout, the registration links, header clicks and the refresh effect all keep the session invariant |
| App.RegisterRoundTrip | App.tsx:72-75 | from the login form, opening registration and succeeding returns to the same session |
| App.BooksInScope | App.tsx:35-46 | visitors and administrators load every book; a plain user loads exactly the store's list of their books, in store order and with multiplicity |
| App.UsersInScope | App.tsx:48-53 | the user list is reloaded only for an administrator; otherwise the previous list stays |
| App.Refresh | App.tsx:56-64 | the effect reloads books and users in scope and keeps user and view |
| App.DashboardBooksModifiable | App.tsx:35-46 | every book on a plain user's dashboard is one they may modify |
| App.UserScopeWithinAdminScope | App.tsx:35-46 | what a plain user loads is among what an administrator loads |
| App.LoginThenRefresh | App.tsx:20-46 | after a plain user's login and refresh, the view is the dashboard and the books are the store's list of that user's books |
| App.LogoutAfterLogin | App.tsx:20-33 | logging out after logging in returns to the public view with nobody logged in |
| App.Render | App.tsx:66-84 | loading shows the loading notice; otherwise the login and registration views show their forms, the public view the public screen with the books, the dashboard and admin views their screens with the user, books (and users) when a user is logged in, and nothing without one |
| App.LoginRendersHome | App.tsx:20-79 | after a successful login the rendered screen is the dashboard or the admin page |
| App.ConsistentRendersSomething | App.tsx:66-84 | in a session satisfying the invariant the rendered screen is never empty; the dashboard shows a plain user and the admin page an administrator |
| App.DashboardShowsControls | components/Dashboard.tsx:53 | on a plain user's refreshed dashboard every card shows the edit and delete buttons |
| App.AdminShowsControls | components/AdminDashboard.tsx:59 | on the admin page every card shows the edit and delete buttons |
| App.PublicHidesControls | components/PublicView.tsx:47 | the public page passes no callbacks, so no card there shows the buttons, not even to the recommender or an administrator |

## Left out

- Asynchrony: the `delay` calls, promises and React hooks are left out. Each handler is one atomic transition, and the loading flag is an input to `App.Render`.
- `alert` and `window.confirm` are left out. A confirmation is a boolean parameter, and alerts have no effect on state.
- `uuidv4()`, `URL.createObjectURL` and the random seed of a placeholder image are parameters. Their freshness is a precondition only on the round-trip lemmas that need it.
- `services/geminiService.ts` (cover recognition through an external vision API) is not part of this model. Its answer is the `result` parameter of `BookForm.CoverChosen`: `None` for a failure or for an empty answer.
- Text.Lower: lower-cases ASCII letters only. `toLowerCase` maps all of Unicode, which only matters for non-ASCII letters; the application's Chinese text is unaffected either way.
- Statistics.AveragePerUser: the exact quotient, without the rounding to two decimal places (`toFixed(2)`), because floating point is out of scope.
- `getSystemTags`, `getUsers`, `getPublicBooks` and `getBooks` return shallow copies of the store's lists: new arrays holding the same objects. `getUserBooks` returns a filtered array holding the same objects too. The model reads them as `s.systemTags`, `s.users` and `s.books` directly. So `updateBook`'s `Object.assign` also changes, in place, the book objects that the application's book list and the form's edited book hold. The model does not show this. It makes no difference to what is displayed, because every save is followed by a reload of the books.
- App.Consistent: `Session.user` is a copy of the account, while the source keeps the very object stored in the user list (`login` returns it). `updateUser` changes that object in place, so an administrator who edits their own account, including its role, also changes the logged-in user. `App.Consistent` and `App.TransitionsKeepConsistent` hold only while the logged-in account is not edited.
- BookForm.FullPatch: states the merge only for payloads with a cover. Every payload the form builds has one, because an absent cover cannot be expressed as a patch field that is present but undefined.
- The catch branches of the delete, add-tag and submit handlers are left out. The store cannot fail there, except for an update of a book that is no longer present, which is `BookForm.SaveFailed`.
- Form glue with no rule of its own is left out: `handleDiscardAIInfo`, the Enter key, the submitting and loading spinners, `components/UserFormModal.tsx`, `components/RegisterForm.tsx`, `components/UserManagement.tsx`, and the layout of `components/Dashboard.tsx` and `components/AdminDashboard.tsx` beyond the callbacks they pass to each book card.
- ISBN check-digit arithmetic is left out, because the application does not perform it.

=== FILE: api.dfy ===
/** The in-memory store behind the application (services/api.ts), as a
    value: every operation takes a store and returns the new one. Fresh
    identifiers, which the source draws from `uuidv4()`, are parameters; the
    artificial delays are left out. */
module Api {
  import opened Wrappers
  import opened Types
  import opened Seqs
  import TagMap

  datatype Store = Store(users: seq<User>, books: seq<Book>, systemTags: seq<Tag>)

  datatype ApiError = BookNotFound | UserNotFound

  /** Prefix of every user's invitation link. */
  const InviteBase: string := "https://bookr.example.com/invite/"

  /** The store's fixture data: two users, five system tags, two books. */
  const Seed: Store := Store(
    [ User("user-1", "张三", "计算机科学", "13800138000", "user@example.com", "前端开发, React",
           UserRole, "https://bookr.example.com/invite/a1b2c3d4"),
      User("admin-1", "管理员", "信息管理", "13900139000", "admin@example.com", "系统管理",
           AdminRole, "https://bookr.example.com/invite/x9y8z7w6") ],
    [ Book("book-1", "深入理解计算机系统", "Randal E. Bryant", "机械工业出版社", "9787111562286",
           "2016-11-01", "计算机专业的圣经，必读！",
           [ Tag("tag-1", "计算机科学", SystemTag), Tag("tag-4", "五星推荐", SystemTag),
             Tag("user-tag-1", "CSAPP", UserTag) ],
           Some("https://picsum.photos/seed/csapp/300/400"), "user-1", "张三"),
      Book("book-2", "三体", "刘慈欣", "重庆出版社", "9787229160935", "2021-08-01",
           "中国科幻的巅峰之作。",
           [ Tag("tag-2", "文学", SystemTag), Tag("tag-4", "五星推荐", SystemTag) ],
           Some("https://picsum.photos/seed/santi/300/400"), "admin-1", "管理员") ],
    [ Tag("tag-1", "计算机科学", SystemTag), Tag("tag-2", "文学", SystemTag),
      Tag("tag-3", "历史", SystemTag), Tag("tag-4", "五星推荐", SystemTag),
      Tag("tag-5", "四星推荐", SystemTag) ])

  // ---------------------------------------------------------------- auth

  predicate HasEmail(email: string, u: User)
  {
    u.email == email
  }

  /** `login`: the first user whose e-mail equals `email` exactly. */
  function Login(s: Store, email: string): (r: Option<User>)
    ensures r.None? <==> forall u :: u in s.users ==> u.email != email
    ensures r.Some? ==> exists i :: 0 <= i < |s.users| && s.users[i] == r.value && r.value.email == email &&
                                    forall j :: 0 <= j < i ==> s.users[j].email != email
  {
    FindFirst(s.users, u => HasEmail(email, u))
  }

  /** `register`: appends a new account built from `data`, always with the
      plain user role, the fresh id and a fresh invitation link. */
  function Register(s: Store, data: User, freshId: string, linkToken: string): (r: (Store, User))
    ensures r.1.role == UserRole && r.1.id == freshId && r.1.uniqueLink == InviteBase + linkToken
    ensures r.1.name == data.name && r.1.email == data.email && r.1.major == data.major
            && r.1.phone == data.phone && r.1.expertise == data.expertise
    ensures r.0 == s.(users := s.users + [r.1])
  {
    var u := data.(id := freshId, role := UserRole, uniqueLink := InviteBase + linkToken);
    (s.(users := s.users + [u]), u)
  }

  /** `addUser` (administrators): like `register`, but the role is the one
      supplied. */
  function AddUser(s: Store, data: User, freshId: string, linkToken: string): (r: (Store, User))
    ensures r.1 == data.(id := freshId, uniqueLink := InviteBase + linkToken)
    ensures r.0 == s.(users := s.users + [r.1])
  {
    var u := data.(id := freshId, uniqueLink := InviteBase + linkToken);
    (s.(users := s.users + [u]), u)
  }

  /** Once registered with an e-mail no one else uses, that e-mail logs in as
      the new account. */
  lemma LoginAfterRegister(s: Store, data: User, freshId: string, linkToken: string)
    requires forall u :: u in s.users ==> u.email != data.email
    ensures Login(Register(s, data, freshId, linkToken).0, data.email) == Some(Register(s, data, freshId, linkToken).1)
  {
    var u := Register(s, data, freshId, linkToken).1;
    FindFirstAppend(s.users, [u], x => HasEmail(data.email, x));
  }

  /** Registering never makes an earlier account unreachable by login. */
  lemma RegisterKeepsLogins(s: Store, data: User, freshId: string, linkToken: string, email: string)
    requires Login(s, email).Some?
    ensures Login(Register(s, data, freshId, linkToken).0, email) == Login(s, email)
  {
    var u := Register(s, data, freshId, linkToken).1;
    FindFirstAppend(s.users, [u], x => HasEmail(email, x));
  }

  /** Login looks e-mails up exactly: the fixture's user is found, an
      upper-case variant of the address is not. */
  lemma SeedLogins()
    ensures Login(Seed, "user@example.com") == Some(Seed.users[0])
    ensures Login(Seed, "admin@example.com") == Some(Seed.users[1])
    ensures Login(Seed, "User@example.com") == None
  {
    assert Seed.users[0].email == "user@example.com";
    assert Seed.users[1].email == "admin@example.com";
    assert Seed.users[0].email != "admin@example.com";
    assert Seed.users[0].email[0] != 'U' && Seed.users[1].email[0] != 'U';
  }

  // ---------------------------------------------------------------- books

  /** `getPublicBooks` and `getBooks`: a shallow copy of the book list, a
      new array holding the stored objects. Values are immutable here, so
      the copy is every stored book, in store order. */
  function ListBooks(s: Store): (r: seq<Book>)
    ensures |r| == |s.books| && forall i :: 0 <= i < |r| ==> r[i] == s.books[i]
  {
    s.books
  }

  predicate RecommendedBy(userId: string, b: Book)
  {
    b.recommenderId == userId
  }

  /** `getUserBooks`: exactly the books recommended by `userId`, in store
      order. */
  function GetUserBooks(s: Store, userId: string): (r: seq<Book>)
    ensures forall b :: b in r <==> b in s.books && b.recommenderId == userId
    ensures forall b :: multiset(r)[b] == if b.recommenderId == userId then multiset(s.books)[b] else 0
    ensures IsSubsequence(r, s.books)
  {
    FilterCounts(s.books, b => RecommendedBy(userId, b));
    Filter(s.books, b => RecommendedBy(userId, b))
  }

  predicate BookIdIn(id: string, bs: seq<Book>)
  {
    exists b :: b in bs && b.id == id
  }

  /** `addBook`: the new book, with the fresh id, goes to the front. */
  function AddBook(s: Store, data: Book, freshId: string): (r: (Store, Book))
    ensures r.1 == data.(id := freshId)
    ensures r.0.books == [r.1] + s.books
    ensures r.0.users == s.users && r.0.systemTags == s.systemTags
  {
    var b := data.(id := freshId);
    (s.(books := [b] + s.books), b)
  }

  /** The fields of `Partial<Book>`: `None` leaves a field as it is. */
  datatype BookPatch = BookPatch(
    id: Option<string>,
    title: Option<string>,
    author: Option<string>,
    publisher: Option<string>,
    isbn: Option<string>,
    publishDate: Option<string>,
    reason: Option<string>,
    tags: Option<seq<Tag>>,
    coverUrl: Option<string>,
    recommenderId: Option<string>,
    recommenderName: Option<string>)

  const NoBookChange: BookPatch :=
    BookPatch(None, None, None, None, None, None, None, None, None, None, None)

  /** `Object.assign(book, patch)` on the book `find` returned. */
  function ApplyBookPatch(b: Book, p: BookPatch): Book
  {
    Book(p.id.GetOr(b.id), p.title.GetOr(b.title), p.author.GetOr(b.author),
         p.publisher.GetOr(b.publisher), p.isbn.GetOr(b.isbn), p.publishDate.GetOr(b.publishDate),
         p.reason.GetOr(b.reason), p.tags.GetOr(b.tags),
         if p.coverUrl.Some? then p.coverUrl else b.coverUrl,
         p.recommenderId.GetOr(b.recommenderId), p.recommenderName.GetOr(b.recommenderName))
  }

  /** A patch that supplies nothing changes nothing, and applying a patch a
      second time changes nothing more. */
  lemma BookPatchLaws(b: Book, p: BookPatch)
    ensures ApplyBookPatch(b, NoBookChange) == b
    ensures ApplyBookPatch(ApplyBookPatch(b, p), p) == ApplyBookPatch(b, p)
  {
  }

  predicate HasBookId(id: string, b: Book)
  {
    b.id == id
  }

  /** `updateBook`: merges the patch into the FIRST book with that id and
      leaves every other book as it is; fails with "Book not found" when no
      book has that id. */
  function UpdateBook(s: Store, id: string, p: BookPatch): (r: Result<(Store, Book), ApiError>)
    ensures r.Failure? <==> !BookIdIn(id, s.books)
    ensures r.Failure? ==> r.error == BookNotFound
    ensures r.Success? ==>
              exists i ::
                && 0 <= i < |s.books| && s.books[i].id == id
                && (forall j :: 0 <= j < i ==> s.books[j].id != id)
                && r.value.1 == ApplyBookPatch(s.books[i], p)
                && r.value.0 == s.(books := s.books[i := r.value.1])
  {
    match FindFirstIndex(s.books, b => HasBookId(id, b))
    case None => Failure(BookNotFound)
    case Some(i) =>
      var b := ApplyBookPatch(s.books[i], p);
      Success((s.(books := s.books[i := b]), b))
  }

  predicate NotBookId(id: string, b: Book)
  {
    b.id != id
  }

  /** `deleteBook`: removes every book with that id, keeps the rest in
      order; nothing happens when the id is absent. */
  function DeleteBook(s: Store, id: string): (r: Store)
    ensures forall b :: b in r.books <==> b in s.books && b.id != id
    ensures forall b :: multiset(r.books)[b] == if b.id != id then multiset(s.books)[b] else 0
    ensures IsSubsequence(r.books, s.books)
    ensures r.users == s.users && r.systemTags == s.systemTags
    ensures !BookIdIn(id, s.books) ==> r == s
  {
    var bs := Filter(s.books, b => NotBookId(id, b));
    FilterCounts(s.books, b => NotBookId(id, b));
    if !BookIdIn(id, s.books) then
      FilterAllPass(s.books, b => NotBookId(id, b));
      s.(books := bs)
    else s.(books := bs)
  }

  /** Adding a book and deleting it again by its fresh id restores the
      store. */
  lemma DeleteAfterAddBook(s: Store, data: Book, freshId: string)
    requires !BookIdIn(freshId, s.books)
    ensures DeleteBook(AddBook(s, data, freshId).0, freshId) == s
  {
    var s' := AddBook(s, data, freshId).0;
    assert s'.books[1..] == s.books;
    FilterAllPass(s.books, b => NotBookId(freshId, b));
  }

  /** A book added for a user heads that user's list, before the books the
      user had already. */
  lemma AddBookHeadsUserBooks(s: Store, data: Book, freshId: string)
    ensures GetUserBooks(AddBook(s, data, freshId).0, data.recommenderId)
            == [data.(id := freshId)] + GetUserBooks(s, data.recommenderId)
  {
    var s' := AddBook(s, data, freshId).0;
    assert s'.books[1..] == s.books;
  }

  // ---------------------------------------------------------------- users

  /** The fields of `Partial<User>`: `None` leaves a field as it is. */
  datatype UserPatch = UserPatch(
    id: Option<string>,
    name: Option<string>,
    major: Option<string>,
    phone: Option<string>,
    email: Option<string>,
    expertise: Option<string>,
    role: Option<Role>,
    uniqueLink: Option<string>)

  function ApplyUserPatch(u: User, p: UserPatch): User
  {
    User(p.id.GetOr(u.id), p.name.GetOr(u.name), p.major.GetOr(u.major), p.phone.GetOr(u.phone),
         p.email.GetOr(u.email), p.expertise.GetOr(u.expertise), p.role.GetOr(u.role),
         p.uniqueLink.GetOr(u.uniqueLink))
  }

  const NoUserChange: UserPatch := UserPatch(None, None, None, None, None, None, None, None)

  /** As for books: an empty patch changes nothing, and applying a patch a
      second time changes nothing more. */
  lemma UserPatchLaws(u: User, p: UserPatch)
    ensures ApplyUserPatch(u, NoUserChange) == u
    ensures ApplyUserPatch(ApplyUserPatch(u, p), p) == ApplyUserPatch(u, p)
  {
  }

  predicate HasUserId(id: string, u: User)
  {
    u.id == id
  }

  predicate UserIdIn(id: string, us: seq<User>)
  {
    exists u :: u in us && u.id == id
  }

  /** `updateUser`: as `updateBook`, on users, failing with "User not
      found". */
  function UpdateUser(s: Store, id: string, p: UserPatch): (r: Result<(Store, User), ApiError>)
    ensures r.Failure? <==> !UserIdIn(id, s.users)
    ensures r.Failure? ==> r.error == UserNotFound
    ensures r.Success? ==>
              exists i ::
                && 0 <= i < |s.users| && s.users[i].id == id
                && (forall j :: 0 <= j < i ==> s.users[j].id != id)
                && r.value.1 == ApplyUserPatch(s.users[i], p)
                && r.value.0 == s.(users := s.users[i := r.value.1])
  {
    match FindFirstIndex(s.users, u => HasUserId(id, u))
    case None => Failure(UserNotFound)
    case Some(i) =>
      var u := ApplyUserPatch(s.users[i], p);
      Success((s.(users := s.users[i := u]), u))
  }

  /** `i` is the first position holding an account with `id`. */
  predicate FirstUserAt(users: seq<User>, id: string, i: int)
  {
    0 <= i < |users| && users[i].id == id && forall j :: 0 <= j < i ==> users[j].id != id
  }

  /** When `i` is the first position with `id`, the update patches exactly
      that account. */
  lemma UpdateUserAt(s: Store, id: string, p: UserPatch, i: int)
    requires FirstUserAt(s.users, id, i)
    ensures UpdateUser(s, id, p) == Success((s.(users := s.users[i := ApplyUserPatch(s.users[i], p)]),
                                             ApplyUserPatch(s.users[i], p)))
  {
    assert UserIdIn(id, s.users) by { assert s.users[i] in s.users; }
    var r := UpdateUser(s, id, p);
    var k :| && 0 <= k < |s.users| && s.users[k].id == id
              && (forall j :: 0 <= j < k ==> s.users[j].id != id)
              && r.value.1 == ApplyUserPatch(s.users[k], p)
              && r.value.0 == s.(users := s.users[k := r.value.1]);
    assert k == i;
  }

  /** Updating an account with an empty patch leaves the store as it was. */
  lemma UpdateUserNoChange(s: Store, id: string, i: int)
    requires FirstUserAt(s.users, id, i)
    ensures UpdateUser(s, id, NoUserChange) == Success((s, s.users[i]))
  {
    UpdateUserAt(s, id, NoUserChange, i);
    UserPatchLaws(s.users[i], NoUserChange);
    assert s.users[i := s.users[i]] == s.users;
  }

  /** Repeating an update that keeps the account's id changes nothing more. */
  lemma {:induction false} UpdateUserTwice(s: Store, id: string, p: UserPatch, i: int)
    requires FirstUserAt(s.users, id, i)
    requires p.id.None? || p.id.value == id
    ensures var once := UpdateUser(s, id, p);
            && once.Success?
            && UpdateUser(once.value.0, id, p) == Success((once.value.0, once.value.1))
  {
    UpdateUserAt(s, id, p, i);
    var u := ApplyUserPatch(s.users[i], p);
    var once := s.(users := s.users[i := u]);
    assert FirstUserAt(once.users, id, i) by {
      assert forall j :: 0 <= j < i ==> once.users[j] == s.users[j];
    }
    UpdateUserAt(once, id, p, i);
    UserPatchLaws(s.users[i], p);
    assert once.users[i := u] == once.users;
  }

  predicate NotUserId(id: string, u: User)
  {
    u.id != id
  }

  /** `deleteUser`: removes every account with that id; the books the user
      recommended stay. */
  function DeleteUser(s: Store, id: string): (r: Store)
    ensures forall u :: u in r.users <==> u in s.users && u.id != id
    ensures forall u :: multiset(r.users)[u] == if u.id != id then multiset(s.users)[u] else 0
    ensures IsSubsequence(r.users, s.users)
    ensures r.books == s.books && r.systemTags == s.systemTags
    ensures !UserIdIn(id, s.users) ==> r == s
  {
    var us := Filter(s.users, u => NotUserId(id, u));
    FilterCounts(s.users, u => NotUserId(id, u));
    if !UserIdIn(id, s.users) then
      FilterAllPass(s.users, u => NotUserId(id, u));
      s.(users := us)
    else s.(users := us)
  }

  /** Adding an account and deleting it by its fresh id restores the
      store. */
  lemma DeleteAfterAddUser(s: Store, data: User, freshId: string, linkToken: string)
    requires !UserIdIn(freshId, s.users)
    ensures DeleteUser(AddUser(s, data, freshId, linkToken).0, freshId) == s
  {
    var (s', u) := AddUser(s, data, freshId, linkToken);
    FilterAppend(s.users, [u], x => NotUserId(freshId, x));
    FilterAllPass(s.users, x => NotUserId(freshId, x));
    assert s.users + [] == s.users;
  }

  // ---------------------------------------------------------------- tags

  /** Every book's tags, book after book (`flatMap`). */
  function BookTags(bs: seq<Book>): (r: seq<Tag>)
    ensures forall t :: t in r <==> exists b :: b in bs && t in b.tags
    decreases |bs|
  {
    if bs == [] then []
    else
      var rest := BookTags(bs[1..]);
      assert forall b :: b in bs[1..] ==> b in bs;
      bs[0].tags + rest
  }

  /** The tags of one book are its own tags, in order. */
  lemma BookTagsOne(b: Book)
    ensures BookTags([b]) == b.tags
  {
  }

  /** `flatMap` over two lists of books is the first list's tags followed
      by the second's; with `BookTagsOne` this fixes the order of
      `BookTags` completely. */
  lemma {:induction false} BookTagsAppend(a: seq<Book>, b: seq<Book>)
    ensures BookTags(a + b) == BookTags(a) + BookTags(b)
    decreases |a|
  {
    if a == [] {
      assert a + b == b;
    } else {
      assert (a + b)[0] == a[0] && (a + b)[1..] == a[1..] + b;
      BookTagsAppend(a[1..], b);
    }
  }

  /** `getAllTags`: the system tags and every book's tags, merged by
      lower-cased name (see `TagMap.Reconcile`). Every result tag is a
      system tag or a tag some book carries; no two share a lower-cased
      name; no name of the inputs is lost; names appear in the order they
      first occur, system tags first and then book after book, and each
      carries the last tag seen with that name. */
  function GetAllTags(s: Store): (r: seq<Tag>)
    ensures TagMap.DistinctKeys(TagMap.Entries(r))
    ensures forall t :: t in r ==> t in s.systemTags || exists b :: b in s.books && t in b.tags
    ensures forall k :: TagMap.HasKey(TagMap.Entries(r), k) <==>
                        TagMap.HasKey(TagMap.Entries(s.systemTags + BookTags(s.books)), k)
    ensures var es := TagMap.Entries(s.systemTags + BookTags(s.books));
            && (forall i :: 0 <= i < |r| ==>
                  TagMap.HasKey(es, TagMap.Key(r[i])) && r[i] == TagMap.LastValueOf(es, TagMap.Key(r[i])))
            && (forall i, j :: 0 <= i < j < |r| ==>
                  TagMap.FirstIndexOf(es, TagMap.Key(r[i])) < TagMap.FirstIndexOf(es, TagMap.Key(r[j])))
  {
    TagMap.Reconcile(s.systemTags + BookTags(s.books))
  }

  /** `addSystemTag`: appends a system tag with the name exactly as given;
      it neither trims the name nor looks for an existing tag of that name. */
  function AddSystemTag(s: Store, name: string, freshId: string): (r: (Store, Tag))
    ensures r.1 == Tag(freshId, name, SystemTag)
    ensures r.0 == s.(systemTags := s.systemTags + [r.1])
  {
    var t := Tag(freshId, name, SystemTag);
    (s.(systemTags := s.systemTags + [t]), t)
  }

  predicate NotTagId(id: string, t: Tag)
  {
    t.id != id
  }

  predicate TagIdIn(id: string, ts: seq<Tag>)
  {
    exists t :: t in ts && t.id == id
  }

  /** `deleteSystemTag`: removes every system tag with that id; books keep
      their copies of it. */
  function DeleteSystemTag(s: Store, id: string): (r: Store)
    ensures forall t :: t in r.systemTags <==> t in s.systemTags && t.id != id
    ensures forall t :: multiset(r.systemTags)[t] == if t.id != id then multiset(s.systemTags)[t] else 0
    ensures IsSubsequence(r.systemTags, s.systemTags)
    ensures r.books == s.books && r.users == s.users
    ensures !TagIdIn(id, s.systemTags) ==> r == s
  {
    var ts := Filter(s.systemTags, t => NotTagId(id, t));
    FilterCounts(s.systemTags, t => NotTagId(id, t));
    if !TagIdIn(id, s.systemTags) then
      FilterAllPass(s.systemTags, t => NotTagId(id, t));
      s.(systemTags := ts)
    else s.(systemTags := ts)
  }

  /** Adding a system tag and deleting it by its fresh id restores the
      store. */
  lemma DeleteAfterAddSystemTag(s: Store, name: string, freshId: string)
    requires !TagIdIn(freshId, s.systemTags)
    ensures DeleteSystemTag(AddSystemTag(s, name, freshId).0, freshId) == s
  {
    var (s', t) := AddSystemTag(s, name, freshId);
    FilterAppend(s.systemTags, [t], x => NotTagId(freshId, x));
    FilterAllPass(s.systemTags, x => NotTagId(freshId, x));
    assert s.systemTags + [] == s.systemTags;
  }

  /** Adding a name that is already a system tag's yields two system tags of
      that name: duplicates are allowed at the store. */
  lemma AddSystemTagAllowsDuplicates(s: Store, name: string, freshId: string)
    requires exists t :: t in s.systemTags && t.name == name
    ensures var ts := AddSystemTag(s, name, freshId).0.systemTags;
            exists i, j :: 0 <= i < j < |ts| && ts[i].name == name && ts[j].name == name
  {
    var ts := AddSystemTag(s, name, freshId).0.systemTags;
    var t :| t in s.systemTags && t.name == name;
    var i :| 0 <= i < |s.systemTags| && s.systemTags[i] == t;
    assert ts[i].name == name && ts[|ts| - 1].name == name;
  }
}

=== FILE: app.dfy ===
/** The application shell (App.tsx): the session, login and logout, which
    books and users are loaded for whom, and which screen is shown. */
module App {
  import opened Wrappers
  import opened Types
  import opened Seqs
  import opened Api
  import BookCard

  datatype View = PublicPage | LoginPage | RegisterPage | DashboardPage | AdminPage

  /** The state App keeps: who is logged in, the current view, and the books
      and users last loaded. */
  datatype Session = Session(user: Option<User>, view: View, books: seq<Book>, allUsers: seq<User>)

  const Initial: Session := Session(None, PublicPage, [], [])

  /** The view a user lands on after logging in. */
  function HomeView(u: User): (v: View)
    ensures v == AdminPage <==> u.role.AdminRole?
    ensures v == DashboardPage <==> u.role.UserRole?
  {
    match u.role
    case AdminRole => AdminPage
    case UserRole => DashboardPage
  }

  /** `handleLogin`: on success the user is set and the view moves to their
      home; on failure nothing changes. */
  function HandleLogin(st: Session, s: Store, email: string): (r: Session)
    ensures Login(s, email).None? ==> r == st
    ensures Login(s, email).Some? ==>
              r == st.(user := Login(s, email), view := HomeView(Login(s, email).value))
    ensures r.user.Some? && r != st ==> r.user.value in s.users && r.user.value.email == email
  {
    match Login(s, email)
    case None => st
    case Some(u) => st.(user := Some(u), view := HomeView(u))
  }

  /** `handleLogout`. */
  function HandleLogout(st: Session): (r: Session)
    ensures r.user.None? && r.view == PublicPage
    ensures r.books == st.books && r.allUsers == st.allUsers
  {
    st.(user := None, view := PublicPage)
  }

  /** The login form's link to registration: only the view changes. */
  function SwitchToRegister(st: Session): (r: Session)
    ensures r.view == RegisterPage
    ensures r.user == st.user && r.books == st.books && r.allUsers == st.allUsers
  {
    st.(view := RegisterPage)
  }

  /** The registration form's success callback: back to the login form,
      with nobody logged in yet. */
  function RegisterSucceeded(st: Session): (r: Session)
    ensures r.view == LoginPage
    ensures r.user == st.user && r.books == st.books && r.allUsers == st.allUsers
  {
    st.(view := LoginPage)
  }

  /** What the header offers: the title, the administration button (shown
      to administrators), logout (shown to a logged-in user), and login and
      registration (shown to a visitor). */
  datatype HeaderAction = TitleClicked | AdminClicked | LogoutClicked | LoginClicked | RegisterClicked

  /** A click in the header (components/Header.tsx). The title leads a user
      home and a visitor to the public page; a button that the header does
      not show for this user cannot be clicked and changes nothing. */
  function HeaderClick(st: Session, a: HeaderAction): (r: Session)
    ensures r.books == st.books && r.allUsers == st.allUsers
    ensures a != LogoutClicked ==> r.user == st.user
    ensures a == TitleClicked && st.user.Some? ==> r.view == HomeView(st.user.value)
    ensures a == TitleClicked && st.user.None? ==> r.view == PublicPage
    ensures a == AdminClicked ==> r.view == (if BookCard.IsAdmin(st.user) then AdminPage else st.view)
    ensures a == LogoutClicked ==> r == (if st.user.Some? then HandleLogout(st) else st)
    ensures a == LoginClicked ==> r.view == (if st.user.None? then LoginPage else st.view)
    ensures a == RegisterClicked ==> r.view == (if st.user.None? then RegisterPage else st.view)
  {
    match a
    case TitleClicked => st.(view := if st.user.Some? then HomeView(st.user.value) else PublicPage)
    case AdminClicked => if BookCard.IsAdmin(st.user) then st.(view := AdminPage) else st
    case LogoutClicked => if st.user.Some? then HandleLogout(st) else st
    case LoginClicked => if st.user.None? then st.(view := LoginPage) else st
    case RegisterClicked => if st.user.None? then st.(view := RegisterPage) else st
  }

  /** The session invariant: the dashboard belongs to a logged-in plain
      user, the administration page to a logged-in administrator, and the
      login and registration forms to a visitor. */
  predicate Consistent(st: Session)
  {
    && (st.view == DashboardPage ==> st.user.Some? && st.user.value.role == UserRole)
    && (st.view == AdminPage ==> st.user.Some? && st.user.value.role == AdminRole)
    && (st.view == LoginPage || st.view == RegisterPage ==> st.user.None?)
  }

  lemma InitialConsistent()
    ensures Consistent(Initial)
  {
  }

  /** Every transition keeps the invariant. The login form's callbacks run
      only while that form is on screen, and the registration form's only
      while it is. */
  lemma TransitionsKeepConsistent(st: Session, s: Store, email: string, a: HeaderAction)
    requires Consistent(st)
    ensures st.view == LoginPage ==> Consistent(HandleLogin(st, s, email))
    ensures st.view == LoginPage ==> Consistent(SwitchToRegister(st))
    ensures st.view == RegisterPage ==> Consistent(RegisterSucceeded(st))
    ensures Consistent(HandleLogout(st))
    ensures Consistent(HeaderClick(st, a))
    ensures Consistent(Refresh(st, s))
  {
  }

  /** Following the login link, and a registration that succeeds, bring a
      visitor back to the login form with nobody logged in. */
  lemma RegisterRoundTrip(st: Session)
    requires Consistent(st) && st.view == LoginPage
    ensures RegisterSucceeded(SwitchToRegister(st)) == st
  {
  }

  /** `refreshBooks`: every book for a visitor or an administrator, only
      their own for a plain user. */
  function BooksInScope(s: Store, user: Option<User>): (r: seq<Book>)
    ensures user.None? || user.value.role == AdminRole ==> r == s.books
    ensures user.Some? && user.value.role == UserRole ==>
              forall b :: b in r <==> b in s.books && b.recommenderId == user.value.id
    ensures IsSubsequence(r, s.books)
    ensures user.Some? && user.value.role == UserRole ==> r == GetUserBooks(s, user.value.id)
  {
    match user
    case None => SubsequenceReflexive(s.books); ListBooks(s)
    case Some(u) =>
      if u.role == AdminRole then SubsequenceReflexive(s.books); ListBooks(s)
      else GetUserBooks(s, u.id)
  }

  /** `refreshAllUsers`: the user list is reloaded only for an
      administrator; otherwise the previous list stays. */
  function UsersInScope(s: Store, user: Option<User>, previous: seq<User>): (r: seq<User>)
    ensures BookCard.IsAdmin(user) ==> r == s.users
    ensures !BookCard.IsAdmin(user) ==> r == previous
  {
    if user.Some? && user.value.role == AdminRole then s.users else previous
  }

  /** The effect run on every change of view or user: both refreshes. */
  function Refresh(st: Session, s: Store): (r: Session)
    ensures r.user == st.user && r.view == st.view
    ensures r.books == BooksInScope(s, st.user)
    ensures r.allUsers == UsersInScope(s, st.user, st.allUsers)
  {
    st.(books := BooksInScope(s, st.user), allUsers := UsersInScope(s, st.user, st.allUsers))
  }

  /** Everything a plain user's dashboard lists is theirs to modify. */
  lemma DashboardBooksModifiable(st: Session, s: Store, b: Book)
    requires st.user.Some? && st.user.value.role == UserRole
    requires b in Refresh(st, s).books
    ensures BookCard.CanModify(st.user, b)
  {
  }

  /** A plain user's books and an administrator's: the first are among the
      second. */
  lemma UserScopeWithinAdminScope(s: Store, u: User, admin: User)
    requires u.role == UserRole && admin.role == AdminRole
    ensures forall b :: b in BooksInScope(s, Some(u)) ==> b in BooksInScope(s, Some(admin))
  {
  }

  /** After logging in and refreshing, a plain user sees exactly the books
      they recommended. */
  lemma LoginThenRefresh(st: Session, s: Store, email: string)
    requires Login(s, email).Some? && Login(s, email).value.role == UserRole
    ensures var r := Refresh(HandleLogin(st, s, email), s);
            && r.view == DashboardPage
            && r.allUsers == st.allUsers
            && (forall b :: b in r.books <==> b in s.books && b.recommenderId == Login(s, email).value.id)
            && r.books == GetUserBooks(s, Login(s, email).value.id)
  {
  }

  /** Logging out after logging in returns to the public page with nobody
      logged in. */
  lemma LogoutAfterLogin(st: Session, s: Store, email: string)
    ensures var r := HandleLogout(HandleLogin(st, s, email));
            r.user.None? && r.view == PublicPage && r.books == st.books
  {
  }

  /** What `renderContent` shows. */
  datatype Screen =
    | Loading
    | LoginScreen
    | RegisterScreen
    | DashboardScreen(owner: User, books: seq<Book>)
    | AdminScreen(admin: User, books: seq<Book>, users: seq<User>)
    | PublicScreen(books: seq<Book>, viewer: Option<User>)
    | Empty

  /** `renderContent`: a loading notice while loading; the dashboard and the
      administration page need a user and render nothing without one. */
  function Render(st: Session, isLoading: bool): (r: Screen)
    ensures isLoading <==> r.Loading?
    ensures !isLoading && st.view == LoginPage ==> r == LoginScreen
    ensures !isLoading && st.view == RegisterPage ==> r == RegisterScreen
    ensures !isLoading && st.view == DashboardPage && st.user.Some? ==> r == DashboardScreen(st.user.value, st.books)
    ensures !isLoading && st.view == AdminPage && st.user.Some? ==>
              r == AdminScreen(st.user.value, st.books, st.allUsers)
    ensures !isLoading && st.view == PublicPage ==> r == PublicScreen(st.books, st.user)
    ensures r.DashboardScreen? ==> st.view == DashboardPage && st.user == Some(r.owner) && r.books == st.books
    ensures r.AdminScreen? ==> st.view == AdminPage && st.user == Some(r.admin) && r.users == st.allUsers
    ensures r.Empty? <==> !isLoading && (st.view == DashboardPage || st.view == AdminPage) && st.user.None?
    ensures r.PublicScreen? <==> !isLoading && st.view == PublicPage
  {
    if isLoading then Loading
    else
      match st.view
      case LoginPage => LoginScreen
      case RegisterPage => RegisterScreen
      case DashboardPage => if st.user.Some? then DashboardScreen(st.user.value, st.books) else Empty
      case AdminPage => if st.user.Some? then AdminScreen(st.user.value, st.books, st.allUsers) else Empty
      case PublicPage => PublicScreen(st.books, st.user)
  }

  /** In a consistent session the screen is never empty: the dashboard
      shows a plain user and the administration page an administrator. */
  lemma ConsistentRendersSomething(st: Session)
    requires Consistent(st)
    ensures Render(st, false) != Empty
    ensures Render(st, false).DashboardScreen? ==> Render(st, false).owner.role == UserRole
    ensures Render(st, false).AdminScreen? ==> Render(st, false).admin.role == AdminRole
  {
  }

  /** On a plain user's refreshed dashboard the card of every book shows
      its edit and delete buttons, since the dashboard passes both
      callbacks. */
  lemma DashboardShowsControls(st: Session, s: Store, b: Book)
    requires st.user.Some? && st.user.value.role == UserRole
    requires b in Refresh(st, s).books
    ensures BookCard.ShowControls(st.user, b, true, true)
  {
    DashboardBooksModifiable(st, s, b);
  }

  /** On the administration page the card of every book shows them. */
  lemma AdminShowsControls(st: Session, b: Book)
    requires BookCard.IsAdmin(st.user)
    ensures BookCard.ShowControls(st.user, b, true, true)
  {
  }

  /** The public page passes no callbacks, so no card there shows the
      buttons, not even to the recommender or an administrator. */
  lemma PublicHidesControls(st: Session, b: Book)
    ensures !BookCard.ShowControls(st.user, b, false, false)
  {
  }

  /** After a successful login the home screen is never empty. */
  lemma LoginRendersHome(st: Session, s: Store, email: string)
    requires Login(s, email).Some?
    ensures var r := Render(HandleLogin(st, s, email), false);
            r.DashboardScreen? || r.AdminScreen?
  {
  }
}

=== FILE: book_card.dfy ===
/** One book in a list (components/BookCard.tsx): who may edit or delete
    it, which tags and which cover it shows, and its delete handler. */
module BookCard {
  import opened Wrappers
  import opened Types
  import opened Api

  predicate IsOwner(user: Option<User>, b: Book)
  {
    user.Some? && user.value.id == b.recommenderId
  }

  predicate IsAdmin(user: Option<User>)
  {
    user.Some? && user.value.role == AdminRole
  }

  /** `canModify`: the book's recommender or an administrator. */
  function CanModify(user: Option<User>, b: Book): (r: bool)
    ensures user.None? ==> !r
    ensures r <==> user.Some? && (user.value.id == b.recommenderId || user.value.role == AdminRole)
  {
    IsOwner(user, b) || IsAdmin(user)
  }

  /** The edit and delete buttons need the permission and both callbacks. */
  function ShowControls(user: Option<User>, b: Book, hasOnEdit: bool, hasRefresh: bool): (r: bool)
    ensures r ==> CanModify(user, b)
    ensures r <==> CanModify(user, b) && hasOnEdit && hasRefresh
  {
    CanModify(user, b) && hasOnEdit && hasRefresh
  }

  /** An administrator may modify every book; a plain user exactly their
      own. */
  lemma PermissionByRole(u: User, b: Book)
    ensures u.role == AdminRole ==> CanModify(Some(u), b)
    ensures u.role == UserRole ==> (CanModify(Some(u), b) <==> b.recommenderId == u.id)
  {
  }

  const PreviewSize: nat := 3

  /** `book.tags.slice(0, 3)`: at most the first three tags, in order. */
  function TagPreview(b: Book): (r: seq<Tag>)
    ensures |r| <= PreviewSize && |r| <= |b.tags|
    ensures |b.tags| <= PreviewSize ==> r == b.tags
    ensures |b.tags| > PreviewSize ==> |r| == PreviewSize
    ensures forall i :: 0 <= i < |r| ==> r[i] == b.tags[i]
  {
    if |b.tags| <= PreviewSize then b.tags else b.tags[..PreviewSize]
  }

  const PlaceholderBase: string := "https://picsum.photos/seed/"

  /** The placeholder image address for a seed. */
  function PlaceholderCover(seed: string): (r: string)
    ensures |r| == |PlaceholderBase| + |seed| + 8
    ensures r[|PlaceholderBase|..|PlaceholderBase| + |seed|] == seed
  {
    PlaceholderBase + seed + "/300/400"
  }

  /** `book.coverUrl || placeholder`: a missing or empty cover URL falls
      back to a placeholder seeded with the book's id. */
  function CoverSrc(b: Book): (r: string)
    ensures b.coverUrl.Some? && b.coverUrl.value != "" ==> r == b.coverUrl.value
    ensures b.coverUrl.None? || b.coverUrl.value == "" ==> r == PlaceholderCover(b.id)
    ensures r != ""
  {
    if b.coverUrl.Some? && b.coverUrl.value != "" then b.coverUrl.value else PlaceholderCover(b.id)
  }

  /** What the delete handler did: the new store and whether the list was
      asked to refresh. */
  datatype DeleteOutcome = DeleteOutcome(store: Store, refreshed: bool)

  /** `handleDelete`: only after confirmation is the book deleted, and the
      list refreshed if a refresh callback was given. */
  function HandleDelete(s: Store, b: Book, confirmed: bool, hasRefresh: bool): (r: DeleteOutcome)
    ensures !confirmed ==> r.store == s && !r.refreshed
    ensures confirmed ==> r.store == DeleteBook(s, b.id) && r.refreshed == hasRefresh
    ensures confirmed ==> !BookIdIn(b.id, r.store.books)
    ensures r.store.users == s.users && r.store.systemTags == s.systemTags
  {
    if confirmed then DeleteOutcome(DeleteBook(s, b.id), hasRefresh)
    else DeleteOutcome(s, false)
  }
}

=== FILE: book_form.dfy ===
/** The book create/edit form (components/BookFormModal.tsx): ISBN shape
    validation, the draft tag list, adoption of fields read from a cover
    image, and submission to the store. Each handler is one state
    transition on a `Form` value. */
module BookForm {
  import opened Wrappers
  import opened Types
  import opened Text
  import opened Seqs
  import opened Api
  import TagMap
  import BookCard

  // ---------------------------------------------------------------- ISBN

  /** `\d` in a JavaScript regular expression: ASCII digits only. */
  predicate IsDigit(c: char)
  {
    '0' <= c <= '9'
  }

  predicate NotHyphen(c: char)
  {
    c != '-'
  }

  /** `isbn.replace(/-/g, '')`. */
  function StripHyphens(s: string): (r: string)
    ensures forall i :: 0 <= i < |r| ==> r[i] != '-'
    ensures forall c :: c in r <==> c in s && c != '-'
    ensures multiset(r) == multiset(s)['-' := 0]
    ensures IsSubsequence(r, s)
  {
    FilterCounts(s, NotHyphen);
    var r := Filter(s, NotHyphen);
    assert forall c :: multiset(r)[c] == multiset(s)['-' := 0][c];
    r
  }

  /** `/^\d{9}[\dX]$/i`. */
  predicate IsIsbn10Shape(c: string)
  {
    |c| == 10 && (forall i :: 0 <= i < 9 ==> IsDigit(c[i])) && (IsDigit(c[9]) || c[9] == 'X' || c[9] == 'x')
  }

  /** `/^\d{13}$/`. */
  predicate IsIsbn13Shape(c: string)
  {
    |c| == 13 && forall i :: 0 <= i < 13 ==> IsDigit(c[i])
  }

  /** `validateIsbn`: a blank field is accepted (the ISBN is optional);
      otherwise, with the hyphens removed, the text must be ten characters
      (nine digits and a digit, `X` or `x`) or thirteen digits. Only the
      shape is checked, not the check digit. */
  function ValidateIsbn(isbn: string): (r: bool)
    ensures IsBlank(isbn) ==> r
    ensures !IsBlank(isbn) ==> (r <==> IsIsbn10Shape(StripHyphens(isbn)) || IsIsbn13Shape(StripHyphens(isbn)))
  {
    if IsBlank(isbn) then true
    else
      var cleaned := StripHyphens(isbn);
      IsIsbn10Shape(cleaned) || IsIsbn13Shape(cleaned)
  }

  /** A non-blank ISBN that passes has 10 or 13 characters besides its
      hyphens, and every one of them is a digit or an X. */
  lemma ValidIsbnCharacters(isbn: string)
    requires !IsBlank(isbn) && ValidateIsbn(isbn)
    ensures |StripHyphens(isbn)| == 10 || |StripHyphens(isbn)| == 13
    ensures forall c :: c in isbn && c != '-' ==> IsDigit(c) || c == 'X' || c == 'x'
  {
    var cleaned := StripHyphens(isbn);
    forall c | c in isbn && c != '-' ensures IsDigit(c) || c == 'X' || c == 'x' {
      assert c in cleaned;
      var i :| 0 <= i < |cleaned| && cleaned[i] == c;
    }
  }

  /** Since only hyphens are removed, a non-blank ISBN containing a space
      (leading, trailing or inside) is rejected. */
  lemma IsbnWithSpaceRejected(isbn: string)
    requires !IsBlank(isbn) && ' ' in isbn
    ensures !ValidateIsbn(isbn)
  {
    if ValidateIsbn(isbn) {
      ValidIsbnCharacters(isbn);
      assert false;
    }
  }

  /** Hyphens may go anywhere in a non-blank ISBN without changing the
      verdict. */
  lemma IsbnHyphenInsensitive(a: string, b: string)
    requires !IsBlank(a + b)
    ensures ValidateIsbn(a + "-" + b) == ValidateIsbn(a + b)
  {
    var s := a + "-" + b;
    assert s == a + ("-" + b);
    assert !IsBlank(s) by {
      assert s[|a|] == '-';
    }
    FilterAppend(a, "-" + b, NotHyphen);
    FilterAppend("-", b, NotHyphen);
    FilterNonePass("-", NotHyphen);
    FilterAppend(a, b, NotHyphen);
    assert StripHyphens(s) == StripHyphens(a + b);
  }

  /** Text without hyphens is checked as it stands. */
  lemma StripNoHyphens(s: string)
    requires '-' !in s
    ensures StripHyphens(s) == s
  {
    FilterAllPass(s, NotHyphen);
  }

  /** Hyphen-free, non-blank text of the right shape is accepted. */
  lemma AcceptedWithoutHyphens(s: string)
    requires '-' !in s && !IsBlank(s) && (IsIsbn10Shape(s) || IsIsbn13Shape(s))
    ensures ValidateIsbn(s)
  {
    StripNoHyphens(s);
  }

  /** Ten or thirteen plain digits are accepted. */
  lemma AllDigitsAccepted(s: string)
    requires |s| == 10 || |s| == 13
    requires forall i :: 0 <= i < |s| ==> IsDigit(s[i])
    ensures ValidateIsbn(s)
  {
    assert !IsSpace(s[0]);
    AcceptedWithoutHyphens(s);
  }

  lemma IsbnExamples()
    ensures ValidateIsbn("9790306406157")
    ensures ValidateIsbn("") && ValidateIsbn("   ")
  {
    AllDigitsAccepted("9790306406157");
    assert IsBlank("   ");
  }

  /** Hyphen-free text of any length but 10 or 13 is rejected. */
  lemma WrongLengthRejected(s: string)
    requires '-' !in s && !IsBlank(s) && |s| != 10 && |s| != 13
    ensures !ValidateIsbn(s)
  {
    StripNoHyphens(s);
  }

  lemma IsbnTooShortExample()
    ensures !ValidateIsbn("12345")
  {
    var x := "12345";
    assert !IsSpace(x[0]);
    WrongLengthRejected(x);
  }

  /** A hyphen between two groups of digits is ignored. */
  lemma HyphenatedDigitsAccepted(a: string, b: string)
    requires |a + b| == 10 || |a + b| == 13
    requires forall i :: 0 <= i < |a + b| ==> IsDigit((a + b)[i])
    ensures ValidateIsbn(a + "-" + b)
  {
    AllDigitsAccepted(a + b);
    assert !IsSpace((a + b)[0]);
    IsbnHyphenInsensitive(a, b);
  }

  /** The final character of an ISBN-10 may be an `X` in either case. */
  lemma IsbnCheckLetterExample()
    ensures ValidateIsbn("030640615x")
  {
    assert !IsSpace("030640615x"[0]);
    AcceptedWithoutHyphens("030640615x");
  }

  /** No check-digit arithmetic: of two ISBN-10s differing only in the
      check digit, at most one is a real ISBN, yet both pass. */
  lemma IsbnCheckDigitNotVerified()
    ensures ValidateIsbn("0306406152") && ValidateIsbn("0306406153")
  {
    AllDigitsAccepted("0306406152");
    AllDigitsAccepted("0306406153");
  }

  // ---------------------------------------------------------------- draft tags

  /** `handleTagToggle`: by identity. A draft holding a tag with that id
      loses every such entry; otherwise the tag is appended. */
  function ToggleTag(tags: seq<Tag>, tag: Tag): (r: seq<Tag>)
    ensures TagIdIn(tag.id, r) <==> !TagIdIn(tag.id, tags)
    ensures TagIdIn(tag.id, tags) ==>
              && (forall t :: t in r <==> t in tags && t.id != tag.id)
              && (forall t :: multiset(r)[t] == if t.id != tag.id then multiset(tags)[t] else 0)
              && IsSubsequence(r, tags)
    ensures !TagIdIn(tag.id, tags) ==> r == tags + [tag]
  {
    if TagIdIn(tag.id, tags) then
      FilterCounts(tags, t => NotTagId(tag.id, t));
      Filter(tags, t => NotTagId(tag.id, t))
    else
      assert (tags + [tag])[|tags|] == tag;
      tags + [tag]
  }

  /** Toggling a tag the draft does not hold, twice, gives the draft back. */
  lemma ToggleTwiceRestores(tags: seq<Tag>, tag: Tag)
    requires !TagIdIn(tag.id, tags)
    ensures ToggleTag(ToggleTag(tags, tag), tag) == tags
  {
    FilterAppend(tags, [tag], t => NotTagId(tag.id, t));
    FilterAllPass(tags, t => NotTagId(tag.id, t));
    assert tags + [] == tags;
  }

  /** Toggling goes by id, not by name: a system tag can join a user tag of
      the same name, so a draft may hold two tags whose names are equal up
      to case. */
  lemma ToggleMayDuplicateName()
    ensures var draft := [Tag("user-tag-9", "文学", UserTag)];
            var r := ToggleTag(draft, Tag("tag-2", "文学", SystemTag));
            |r| == 2 && TagMap.Key(r[0]) == TagMap.Key(r[1])
  {
    var draft := [Tag("user-tag-9", "文学", UserTag)];
    var sys := Tag("tag-2", "文学", SystemTag);
    assert !TagIdIn(sys.id, draft) by {
      assert draft[0].id != sys.id by { assert draft[0].id[0] != sys.id[0]; }
    }
  }

  /** `removeTag`: drops every entry with that id, keeps the rest in order. */
  function RemoveTag(tags: seq<Tag>, id: string): (r: seq<Tag>)
    ensures forall t :: t in r <==> t in tags && t.id != id
    ensures forall t :: multiset(r)[t] == if t.id != id then multiset(tags)[t] else 0
    ensures IsSubsequence(r, tags)
    ensures !TagIdIn(id, tags) ==> r == tags
  {
    FilterCounts(tags, t => NotTagId(id, t));
    if !TagIdIn(id, tags) then
      FilterAllPass(tags, t => NotTagId(id, t));
      Filter(tags, t => NotTagId(id, t))
    else Filter(tags, t => NotTagId(id, t))
  }

  predicate HasName(tags: seq<Tag>, name: string)
  {
    exists t :: t in tags && Lower(t.name) == Lower(name)
  }

  /** `addUserTag`: by name. Blank input, or a name some draft tag already
      has up to case, leaves the draft alone; otherwise a user tag with the
      trimmed name and the fresh id is appended. */
  function AddUserTag(tags: seq<Tag>, input: string, freshId: string): (r: seq<Tag>)
    ensures IsBlank(input) || HasName(tags, Trim(input)) ==> r == tags
    ensures !IsBlank(input) && !HasName(tags, Trim(input)) ==> r == tags + [Tag(freshId, Trim(input), UserTag)]
  {
    var name := Trim(input);
    if name == "" then tags
    else if exists t :: t in tags && Lower(t.name) == Lower(name) then tags
    else tags + [Tag(freshId, name, UserTag)]
  }

  /** A draft whose names are distinct up to case stays so under
      `AddUserTag`. */
  lemma AddUserTagKeepsNamesDistinct(tags: seq<Tag>, input: string, freshId: string)
    requires TagMap.DistinctKeys(TagMap.Entries(tags))
    ensures TagMap.DistinctKeys(TagMap.Entries(AddUserTag(tags, input, freshId)))
    ensures forall t :: t in tags ==> t in AddUserTag(tags, input, freshId)
  {
    var r := AddUserTag(tags, input, freshId);
    if r != tags {
      var es := TagMap.Entries(r);
      forall i, j | 0 <= i < j < |r| ensures es[i].key != es[j].key {
        if j == |tags| {
          assert r[i] in tags;
        } else {
          assert TagMap.Entries(tags)[i] == es[i] && TagMap.Entries(tags)[j] == es[j];
        }
      }
    }
  }

  /** Once a name has been entered, entering it again in any case mix
      (with any padding) adds nothing. */
  lemma AddUserTagIgnoresCase(tags: seq<Tag>, first: string, again: string, id1: string, id2: string)
    requires Lower(Trim(first)) == Lower(Trim(again))
    ensures AddUserTag(AddUserTag(tags, first, id1), again, id2) == AddUserTag(tags, first, id1)
  {
    var r := AddUserTag(tags, first, id1);
    if IsBlank(first) {
      LowerEmpty(Trim(again));
    } else if HasName(tags, Trim(first)) {
      var t :| t in tags && Lower(t.name) == Lower(Trim(first));
      assert Lower(t.name) == Lower(Trim(again));
    } else {
      assert r[|tags|] in r;
      LowerEmpty(Trim(first));
      assert Lower(r[|tags|].name) == Lower(Trim(again));
    }
  }

  // ---------------------------------------------------------------- form state

  datatype Fields = Fields(
    title: string,
    author: string,
    publisher: string,
    isbn: string,
    publishDate: string,
    reason: string)

  datatype Field = Title | Author | Publisher | Isbn | PublishDate | Reason

  /** The ISBN message on display: none, the format error raised while
      typing, or the warning raised when a recognised ISBN looks wrong. */
  datatype IsbnError = NoIsbnError | IsbnFormatError | AiIsbnWarning

  datatype Form = Form(
    fields: Fields,
    tags: seq<Tag>,
    tagInput: string,
    isbnError: IsbnError,
    aiInfo: Option<AIBookInfo>,
    coverChosen: bool)

  const EmptyFields: Fields := Fields("", "", "", "", "", "")

  /** The effect run when the form opens: the fields and tags of the book
      being edited, or empty ones; no ISBN message, no pending recognition,
      no chosen file. The tag input box keeps its text. */
  function OpenForm(prev: Form, book: Option<Book>): (f: Form)
    ensures book.Some? ==> f.fields == Fields(book.value.title, book.value.author, book.value.publisher,
                                                book.value.isbn, book.value.publishDate, book.value.reason)
                           && f.tags == book.value.tags
    ensures book.None? ==> f.fields == EmptyFields && f.tags == []
    ensures f.isbnError == NoIsbnError && f.aiInfo == None && !f.coverChosen && f.tagInput == prev.tagInput
  {
    match book
    case Some(b) =>
      Form(Fields(b.title, b.author, b.publisher, b.isbn, b.publishDate, b.reason), b.tags,
           prev.tagInput, NoIsbnError, None, false)
    case None => Form(EmptyFields, [], prev.tagInput, NoIsbnError, None, false)
  }

  function GetField(fs: Fields, field: Field): string
  {
    match field
    case Title => fs.title
    case Author => fs.author
    case Publisher => fs.publisher
    case Isbn => fs.isbn
    case PublishDate => fs.publishDate
    case Reason => fs.reason
  }

  function SetField(fs: Fields, field: Field, value: string): (r: Fields)
    ensures GetField(r, field) == value
    ensures forall g :: g != field ==> GetField(r, g) == GetField(fs, g)
  {
    match field
    case Title => fs.(title := value)
    case Author => fs.(author := value)
    case Publisher => fs.(publisher := value)
    case Isbn => fs.(isbn := value)
    case PublishDate => fs.(publishDate := value)
    case Reason => fs.(reason := value)
  }

  /** `handleInputChange`: stores the value; typing in the ISBN field
      re-validates it. */
  function InputChange(f: Form, field: Field, value: string): (r: Form)
    ensures GetField(r.fields, field) == value
    ensures forall g :: g != field ==> GetField(r.fields, g) == GetField(f.fields, g)
    ensures field == Isbn ==> (r.isbnError == NoIsbnError <==> ValidateIsbn(value))
    ensures field == Isbn && !ValidateIsbn(value) ==> r.isbnError == IsbnFormatError
    ensures field != Isbn ==> r.isbnError == f.isbnError
    ensures r.tags == f.tags && r.aiInfo == f.aiInfo
    ensures r.tagInput == f.tagInput && r.coverChosen == f.coverChosen
  {
    var fs := SetField(f.fields, field, value);
    if field == Isbn then
      f.(fields := fs, isbnError := if ValidateIsbn(value) then NoIsbnError else IsbnFormatError)
    else f.(fields := fs)
  }

  predicate AnyRecognised(info: AIBookInfo)
  {
    info.title.Some? || info.author.Some? || info.publisher.Some? || info.isbn.Some?
  }

  /** `handleCoverChange` once the recognition call has returned: `result`
      is `None` when it failed or returned nothing. The result is offered
      for adoption only when at least one field was recognised. */
  function CoverChosen(f: Form, result: Option<AIBookInfo>): (r: Form)
    ensures r.coverChosen
    ensures r.aiInfo.Some? <==> result.Some? && AnyRecognised(result.value)
    ensures r.aiInfo.Some? ==> r.aiInfo == result
    ensures r.fields == f.fields && r.tags == f.tags && r.isbnError == f.isbnError
    ensures r.tagInput == f.tagInput
  {
    var offered := if result.Some? && AnyRecognised(result.value) then result else None;
    f.(coverChosen := true, aiInfo := offered)
  }

  /** `aiValue || previous`: a recognised value wins unless it is missing
      or empty. */
  function Prefer(ai: Option<string>, prev: string): (r: string)
    ensures ai.Some? && ai.value != "" ==> r == ai.value
    ensures ai.None? || ai.value == "" ==> r == prev
  {
    if ai.Some? && ai.value != "" then ai.value else prev
  }

  /** `handleAdoptAIInfo`: title, author, publisher and ISBN take the
      recognised values where present and non-empty; publish date and
      reason stay. A recognised ISBN re-sets the ISBN message; the pending
      result is cleared. */
  function AdoptAIInfo(f: Form): (r: Form)
    ensures f.aiInfo.None? ==> r == f
    ensures f.aiInfo.Some? ==> r.aiInfo.None?
    ensures f.aiInfo.Some? ==>
              var ai := f.aiInfo.value;
              && r.fields.title == Prefer(ai.title, f.fields.title)
              && r.fields.author == Prefer(ai.author, f.fields.author)
              && r.fields.publisher == Prefer(ai.publisher, f.fields.publisher)
              && r.fields.isbn == Prefer(ai.isbn, f.fields.isbn)
              && r.fields.publishDate == f.fields.publishDate
              && r.fields.reason == f.fields.reason
    ensures f.aiInfo.Some? && f.aiInfo.value.isbn.Some? && f.aiInfo.value.isbn.value != "" ==>
              (r.isbnError == NoIsbnError <==> ValidateIsbn(r.fields.isbn))
    ensures f.aiInfo.Some? && f.aiInfo.value.isbn.Some? && f.aiInfo.value.isbn.value != "" ==>
              (r.isbnError == AiIsbnWarning <==> !ValidateIsbn(f.aiInfo.value.isbn.value))
    ensures f.aiInfo.Some? && (f.aiInfo.value.isbn.None? || f.aiInfo.value.isbn.value == "") ==>
              r.isbnError == f.isbnError
    ensures r.tags == f.tags && r.coverChosen == f.coverChosen && r.tagInput == f.tagInput
  {
    match f.aiInfo
    case None => f
    case Some(ai) =>
      var fs := f.fields.(title := Prefer(ai.title, f.fields.title),
                          author := Prefer(ai.author, f.fields.author),
                          publisher := Prefer(ai.publisher, f.fields.publisher),
                          isbn := Prefer(ai.isbn, f.fields.isbn));
      var aiIsbn := ai.isbn.Some? && ai.isbn.value != "";
      var err := if aiIsbn && !ValidateIsbn(ai.isbn.value) then AiIsbnWarning
                 else if aiIsbn then NoIsbnError
                 else f.isbnError;
      f.(fields := fs, isbnError := err, aiInfo := None)
  }

  /** `addUserTag` on the form: blank input does nothing; otherwise the tag
      is added (unless its name is taken) and the input box is cleared. */
  function CommitTagInput(f: Form, freshId: string): (r: Form)
    ensures IsBlank(f.tagInput) ==> r == f
    ensures !IsBlank(f.tagInput) ==> r == f.(tags := AddUserTag(f.tags, f.tagInput, freshId), tagInput := "")
  {
    if Trim(f.tagInput) == "" then f
    else f.(tags := AddUserTag(f.tags, f.tagInput, freshId), tagInput := "")
  }

  /** The form shows no ISBN message only when its ISBN passes the check. */
  predicate IsbnConsistent(f: Form)
  {
    f.isbnError == NoIsbnError ==> ValidateIsbn(f.fields.isbn)
  }

  /** A new book's form starts consistent. */
  lemma OpenFormConsistent(prev: Form, book: Option<Book>)
    ensures IsbnConsistent(OpenForm(prev, None))
    ensures book.Some? && ValidateIsbn(book.value.isbn) ==> IsbnConsistent(OpenForm(prev, book))
  {
    assert IsBlank("");
  }

  /** Typing keeps the form consistent. */
  lemma InputChangeConsistent(f: Form, field: Field, value: string)
    requires IsbnConsistent(f)
    ensures IsbnConsistent(InputChange(f, field, value))
  {
    var g := InputChange(f, field, value);
    if field != Isbn {
      assert GetField(g.fields, Isbn) == GetField(f.fields, Isbn);
    }
  }

  /** Adopting recognised values keeps the form consistent. */
  lemma AdoptAIInfoConsistent(f: Form)
    requires IsbnConsistent(f)
    ensures IsbnConsistent(AdoptAIInfo(f))
  {
  }

  /** The remaining handlers do not touch the ISBN or its message. */
  lemma OtherHandlersConsistent(f: Form, result: Option<AIBookInfo>, tag: Tag, id: string)
    requires IsbnConsistent(f)
    ensures IsbnConsistent(CoverChosen(f, result))
    ensures IsbnConsistent(CommitTagInput(f, id))
    ensures IsbnConsistent(f.(tags := ToggleTag(f.tags, tag)))
    ensures IsbnConsistent(f.(tags := RemoveTag(f.tags, id)))
  {
  }

  // ---------------------------------------------------------------- submit

  /** `Blocked`: the browser's constraint validation stopped the submit
      event; `Refused`: `handleSubmit` returned because of an ISBN message. */
  datatype SubmitOutcome = Blocked | Refused | Saved(store: Store) | SaveFailed

  /** The title, author and reason inputs carry `required`: the browser
      submits the form only when none of them is the empty string. A blank
      but non-empty value passes. */
  predicate RequiredFilled(f: Form)
  {
    f.fields.title != "" && f.fields.author != "" && f.fields.reason != ""
  }

  /** The cover sent with the book: the chosen file's URL, else the edited
      book's non-empty cover, else a placeholder image. */
  function CoverUrlFor(f: Form, editing: Option<Book>, fileUrl: string, token: string): (r: string)
    ensures f.coverChosen ==> r == fileUrl
    ensures !f.coverChosen && editing.Some? && editing.value.coverUrl.Some? && editing.value.coverUrl.value != ""
            ==> r == editing.value.coverUrl.value
    ensures !f.coverChosen && (editing.None? || editing.value.coverUrl.None? || editing.value.coverUrl.value == "")
            ==> r == BookCard.PlaceholderCover(token)
    ensures r == "" ==> f.coverChosen && fileUrl == ""
  {
    if f.coverChosen then fileUrl
    else if editing.Some? && editing.value.coverUrl.Some? && editing.value.coverUrl.value != "" then
      editing.value.coverUrl.value
    else BookCard.PlaceholderCover(token)
  }

  /** `b` holds everything the form sends: its six fields, its draft tags,
      the cover, and `user` as recommender. */
  predicate Records(b: Book, f: Form, user: User, coverUrl: string)
  {
    && b.title == f.fields.title && b.author == f.fields.author && b.publisher == f.fields.publisher
    && b.isbn == f.fields.isbn && b.publishDate == f.fields.publishDate && b.reason == f.fields.reason
    && b.tags == f.tags && b.coverUrl == Some(coverUrl)
    && b.recommenderId == user.id && b.recommenderName == user.name
  }

  /** The book sent to the store: the form's fields and draft tags, the
      cover, and the CURRENT user as recommender. Its id is a placeholder:
      `addBook` replaces it and the update patch leaves it out. */
  function Payload(f: Form, user: User, coverUrl: string): (b: Book)
    ensures Records(b, f, user, coverUrl)
  {
    Book("", f.fields.title, f.fields.author, f.fields.publisher, f.fields.isbn, f.fields.publishDate,
         f.fields.reason, f.tags, Some(coverUrl), user.id, user.name)
  }

  /** Every field of `b` except its id, as a patch. */
  function FullPatch(b: Book): (p: BookPatch)
    ensures b.coverUrl.Some? ==> forall prior: Book :: ApplyBookPatch(prior, p) == b.(id := prior.id)
  {
    BookPatch(None, Some(b.title), Some(b.author), Some(b.publisher), Some(b.isbn), Some(b.publishDate),
              Some(b.reason), Some(b.tags), b.coverUrl, Some(b.recommenderId), Some(b.recommenderName))
  }

  /** Submitting the form: blocked by the browser while a required field is
      empty; then `handleSubmit` refuses while an ISBN message shows;
      otherwise a new book is added (with `freshId`) or the edited one
      updated, which fails only when that book is no longer in the store. */
  function Submit(f: Form, editing: Option<Book>, user: User, s: Store,
                  fileUrl: string, token: string, freshId: string): (r: SubmitOutcome)
    ensures !RequiredFilled(f) <==> r.Blocked?
    ensures r.Refused? <==> RequiredFilled(f) && f.isbnError != NoIsbnError
    ensures r.SaveFailed? <==> && RequiredFilled(f) && f.isbnError == NoIsbnError
                               && editing.Some? && !BookIdIn(editing.value.id, s.books)
    ensures r.Saved? ==> r.store.users == s.users && r.store.systemTags == s.systemTags
    ensures r.Saved? && editing.None? ==>
              && |r.store.books| == |s.books| + 1 && r.store.books[1..] == s.books
              && r.store.books[0].id == freshId
              && Records(r.store.books[0], f, user, CoverUrlFor(f, editing, fileUrl, token))
    ensures r.Saved? && editing.Some? ==>
              exists i :: && 0 <= i < |s.books| && s.books[i].id == editing.value.id
                          && |r.store.books| == |s.books|
                          && r.store.books == s.books[i := r.store.books[i]]
                          && (forall j :: 0 <= j < i ==> s.books[j].id != editing.value.id)
                          && r.store.books[i].id == editing.value.id
                          && Records(r.store.books[i], f, user, CoverUrlFor(f, editing, fileUrl, token))
  {
    if !RequiredFilled(f) then Blocked
    else if f.isbnError != NoIsbnError then Refused
    else
      var payload := Payload(f, user, CoverUrlFor(f, editing, fileUrl, token));
      match editing
      case None => Saved(AddBook(s, payload, freshId).0)
      case Some(b) =>
        match UpdateBook(s, b.id, FullPatch(payload))
        case Success((s', _)) => Saved(s')
        case Failure(_) => SaveFailed
  }

  /** The browser stops exactly the submits with an empty title, author or
      reason; the publisher may stay empty, and a value of spaces passes. */
  lemma RequiredFieldsGate(f: Form, editing: Option<Book>, user: User, s: Store,
                           fileUrl: string, token: string, freshId: string)
    ensures Submit(f, editing, user, s, fileUrl, token, freshId).Blocked?
            <==> f.fields.title == "" || f.fields.author == "" || f.fields.reason == ""
  {
  }

  /** A consistent form that is saved stores a valid ISBN. */
  lemma SavedIsbnValid(f: Form, editing: Option<Book>, user: User, s: Store,
                       fileUrl: string, token: string, freshId: string)
    requires IsbnConsistent(f)
    requires Submit(f, editing, user, s, fileUrl, token, freshId).Saved?
    ensures ValidateIsbn(f.fields.isbn)
  {
  }

  /** Saving an edit without choosing a new file keeps the book's cover. */
  lemma EditKeepsCover(f: Form, b: Book, user: User, s: Store, fileUrl: string, token: string, freshId: string)
    requires !f.coverChosen && b.coverUrl.Some? && b.coverUrl.value != ""
    requires Submit(f, Some(b), user, s, fileUrl, token, freshId).Saved?
    ensures var r := Submit(f, Some(b), user, s, fileUrl, token, freshId);
            exists i :: 0 <= i < |r.store.books| && r.store.books[i].id == b.id && r.store.books[i].coverUrl == b.coverUrl
  {
  }

  /** A new book with its required fields filled and saved without a chosen
      file gets the placeholder image for the token. */
  lemma NewBookGetsPlaceholder(f: Form, user: User, s: Store, fileUrl: string, token: string, freshId: string)
    requires RequiredFilled(f) && !f.coverChosen && f.isbnError == NoIsbnError
    ensures var r := Submit(f, None, user, s, fileUrl, token, freshId);
            r.Saved? && r.store.books[0].coverUrl == Some(BookCard.PlaceholderCover(token))
  {
  }

  /** A saved book's cover is never empty (an object URL never is), so its
      card shows exactly that cover rather than the id-seeded placeholder. */
  lemma SavedCoverShown(f: Form, editing: Option<Book>, user: User, s: Store,
                        fileUrl: string, token: string, freshId: string)
    requires fileUrl != ""
    ensures CoverUrlFor(f, editing, fileUrl, token) != ""
    ensures var r := Submit(f, editing, user, s, fileUrl, token, freshId);
            r.Saved? && editing.None? ==>
              BookCard.CoverSrc(r.store.books[0]) == CoverUrlFor(f, editing, fileUrl, token)
  {
  }

  /** Editing reassigns the recommendation: when an administrator saves
      someone else's book, the book becomes the administrator's. */
  lemma AdminEditTakesOverRecommendation(f: Form, b: Book, admin: User, s: Store,
                                         fileUrl: string, token: string, freshId: string)
    requires RequiredFilled(f) && f.isbnError == NoIsbnError && b in s.books && admin.id != b.recommenderId
    ensures var r := Submit(f, Some(b), admin, s, fileUrl, token, freshId);
            r.Saved? && exists i :: 0 <= i < |r.store.books| && r.store.books[i].id == b.id
                                    && r.store.books[i].recommenderId == admin.id
                                    && r.store.books[i].recommenderId != b.recommenderId
  {
  }
}

=== FILE: public_view.dfy ===
/** The catalog search of the public view (components/PublicView.tsx). */
module PublicView {
  import opened Wrappers
  import opened Types
  import opened Text
  import opened Seqs

  /** Some tag of `b` has a name holding `needle` once lower-cased. */
  predicate TagNameMatches(b: Book, needle: string)
  {
    exists t :: t in b.tags && Contains(Lower(t.name), needle)
  }

  /** The four fields searched: title, author, recommender name and tag
      names, each lower-cased, holding the lower-cased term. */
  predicate Matches(b: Book, term: string)
  {
    var needle := Lower(term);
    Contains(Lower(b.title), needle) || Contains(Lower(b.author), needle)
    || Contains(Lower(b.recommenderName), needle) || TagNameMatches(b, needle)
  }

  /** Every book matches the empty term. */
  lemma EmptyTermMatches(b: Book)
    ensures Matches(b, "")
  {
    ContainsEmpty(Lower(b.title));
  }

  /** `filteredBooks`: the empty term shows every book; any other term
      keeps, in their order, the books some searched field of which holds
      it, ignoring case. The term is not trimmed. */
  function SearchBooks(books: seq<Book>, term: string): (r: seq<Book>)
    ensures term == "" ==> r == books
    ensures IsSubsequence(r, books)
    ensures forall b :: b in r <==> b in books && Matches(b, term)
    ensures forall b :: multiset(r)[b] == if Matches(b, term) then multiset(books)[b] else 0
  {
    if term == "" then
      SubsequenceReflexive(books);
      assert forall b :: b in books ==> Matches(b, term) by {
        forall b | b in books ensures Matches(b, term) {
          EmptyTermMatches(b);
        }
      }
      books
    else
      FilterCounts(books, b => Matches(b, term));
      Filter(books, b => Matches(b, term))
  }

  /** Terms that differ only in letter case find the same books. */
  lemma SearchCaseInsensitive(books: seq<Book>, t1: string, t2: string)
    requires Lower(t1) == Lower(t2)
    ensures SearchBooks(books, t1) == SearchBooks(books, t2)
  {
    LowerEmpty(t1);
    LowerEmpty(t2);
    FilterCongruent(books, b => Matches(b, t1), b => Matches(b, t2));
  }

  /** Searching the result again with the same term changes nothing. */
  lemma SearchIdempotent(books: seq<Book>, term: string)
    ensures SearchBooks(SearchBooks(books, term), term) == SearchBooks(books, term)
  {
    if term != "" {
      FilterIdempotent(books, b => Matches(b, term));
    }
  }

  /** Lower-casing creates no spaces. */
  lemma NoSpaceNoMatch(h: string)
    requires ' ' !in h
    ensures !Contains(Lower(h), " ")
  {
    var l := Lower(h);
    forall i | 0 <= i <= |l| - 1 ensures !OccursAt(l, " ", i) {
      assert h[i] in h;
      assert l[i..i + 1][0] == LowerChar(h[i]);
    }
  }

  /** A term of one space is a real query: a book with no space in any
      searched field is left out. */
  lemma SpacesAreAQuery(books: seq<Book>, b: Book)
    requires ' ' !in b.title && ' ' !in b.author && ' ' !in b.recommenderName
    requires forall t :: t in b.tags ==> ' ' !in t.name
    ensures b !in SearchBooks(books, " ")
  {
    assert Lower(" ") == " ";
    NoSpaceNoMatch(b.title);
    NoSpaceNoMatch(b.author);
    NoSpaceNoMatch(b.recommenderName);
    forall t | t in b.tags ensures !Contains(Lower(t.name), " ") {
      NoSpaceNoMatch(t.name);
    }
  }

  /** A term found only in a tag's name still finds the book. */
  lemma TagOnlyMatch(books: seq<Book>, b: Book, t: Tag, term: string)
    requires b in books && t in b.tags && Contains(Lower(t.name), Lower(term))
    ensures b in SearchBooks(books, term)
  {
  }

  /** Upper-case "GO" finds "The Go Programming Language" by its title. */
  lemma TitleExample(b: Book)
    requires b.title == "The Go Programming Language"
    ensures b in SearchBooks([b], "GO")
  {
    var l := Lower(b.title);
    assert b.title[4] == 'G' && b.title[5] == 'o';
    assert l[4] == 'g' && l[5] == 'o';
    assert l[4..6] == "go";
    assert Lower("GO") == "go";
    assert OccursAt(l, "go", 4);
  }

  /** "scifi" finds a book whose only match is its tag "SciFi". */
  lemma TagExample(b: Book, t: Tag)
    requires t in b.tags && t.name == "SciFi"
    ensures b in SearchBooks([b], "scifi")
  {
    assert Lower(t.name) == "scifi";
    assert Lower("scifi") == "scifi";
    assert OccursAt(Lower(t.name), "scifi", 0);
  }
}

=== FILE: seqs.dfy ===
/** Sequence operations shared by the model: `Array.prototype.filter`,
    `find` and `findIndex`, with the facts the rest of the model needs
    about them. */
module Seqs {
  import opened Wrappers

  /** `a` is `b` with some elements left out and the rest in their order. */
  predicate IsSubsequence<T(==)>(a: seq<T>, b: seq<T>)
    decreases |b|
  {
    a == [] ||
    (b != [] && ((a[0] == b[0] && IsSubsequence(a[1..], b[1..])) || IsSubsequence(a, b[1..])))
  }

  lemma {:induction false} SubsequenceReflexive<T>(s: seq<T>)
    ensures IsSubsequence(s, s)
    decreases |s|
  {
    if s != [] {
      SubsequenceReflexive(s[1..]);
    }
  }

  lemma {:induction false} SubsequenceLength<T>(a: seq<T>, b: seq<T>)
    requires IsSubsequence(a, b)
    ensures |a| <= |b|
    decreases |b|
  {
    if a != [] {
      if a[0] == b[0] && IsSubsequence(a[1..], b[1..]) {
        SubsequenceLength(a[1..], b[1..]);
      } else {
        SubsequenceLength(a, b[1..]);
      }
    }
  }

  /** `s.filter(p)`. How often each element occurs is stated by
      `FilterCounts`. */
  function Filter<T(!new)>(s: seq<T>, p: T -> bool): (r: seq<T>)
    ensures forall x :: x in r <==> x in s && p(x)
    ensures forall i :: 0 <= i < |r| ==> p(r[i])
    ensures IsSubsequence(r, s)
    ensures |r| <= |s|
    decreases |s|
  {
    if s == [] then []
    else if p(s[0]) then [s[0]] + Filter(s[1..], p)
    else Filter(s[1..], p)
  }

  /** `r` keeps each element `p` accepts as often as `s` has it and drops
      the others. */
  ghost predicate KeepsCounts<T(!new)>(r: seq<T>, s: seq<T>, p: T -> bool)
  {
    forall x :: multiset(r)[x] == if p(x) then multiset(s)[x] else 0
  }

  /** The recursion of `Filter` without its postconditions: proofs about
      concatenation are carried out here, where the solver does not have to
      wade through `Filter`'s membership facts. */
  function Kept<T>(s: seq<T>, p: T -> bool): seq<T>
    decreases |s|
  {
    if s == [] then [] else (if p(s[0]) then [s[0]] else []) + Kept(s[1..], p)
  }

  lemma {:induction false} FilterIsKept<T(!new)>(s: seq<T>, p: T -> bool)
    ensures Filter(s, p) == Kept(s, p)
    decreases |s|
  {
    if s != [] {
      FilterIsKept(s[1..], p);
    }
  }

  lemma {:induction false} KeptAppend<T>(a: seq<T>, b: seq<T>, p: T -> bool)
    ensures Kept(a + b, p) == Kept(a, p) + Kept(b, p)
    decreases |a|
  {
    if a == [] {
      assert a + b == b;
    } else {
      var head := if p(a[0]) then [a[0]] else [];
      assert (a + b)[0] == a[0] && (a + b)[1..] == a[1..] + b;
      KeptAppend(a[1..], b, p);
      assert head + (Kept(a[1..], p) + Kept(b, p)) == (head + Kept(a[1..], p)) + Kept(b, p);
    }
  }

  lemma {:induction false} KeptCounts<T(!new)>(s: seq<T>, p: T -> bool)
    ensures KeepsCounts(Kept(s, p), s, p)
    decreases |s|
  {
    if s != [] {
      KeptCounts(s[1..], p);
      var head := if p(s[0]) then [s[0]] else [];
      assert s == [s[0]] + s[1..];
      assert multiset(Kept(s, p)) == multiset(head) + multiset(Kept(s[1..], p));
    }
  }

  /** Filtering keeps every passing element as often as it occurs, and no
      other element. */
  lemma FilterCounts<T(!new)>(s: seq<T>, p: T -> bool)
    ensures KeepsCounts(Filter(s, p), s, p)
  {
    FilterIsKept(s, p);
    KeptCounts(s, p);
  }

  lemma FilterAppend<T(!new)>(a: seq<T>, b: seq<T>, p: T -> bool)
    ensures Filter(a + b, p) == Filter(a, p) + Filter(b, p)
  {
    FilterIsKept(a + b, p);
    FilterIsKept(a, p);
    FilterIsKept(b, p);
    KeptAppend(a, b, p);
  }

  /** Filtering keeps everything exactly when everything passes. */
  lemma {:induction false} FilterAllPass<T(!new)>(s: seq<T>, p: T -> bool)
    requires forall x :: x in s ==> p(x)
    ensures Filter(s, p) == s
    decreases |s|
  {
    if s != [] {
      FilterAllPass(s[1..], p);
    }
  }

  /** Filtering when nothing passes yields nothing. */
  lemma {:induction false} FilterNonePass<T(!new)>(s: seq<T>, p: T -> bool)
    requires forall x :: x in s ==> !p(x)
    ensures Filter(s, p) == []
    decreases |s|
  {
    if s != [] {
      FilterNonePass(s[1..], p);
    }
  }

  /** Two predicates that agree on the elements of `s` filter it alike. */
  lemma {:induction false} FilterCongruent<T(!new)>(s: seq<T>, p: T -> bool, q: T -> bool)
    requires forall x :: x in s ==> p(x) == q(x)
    ensures Filter(s, p) == Filter(s, q)
    decreases |s|
  {
    if s != [] {
      FilterCongruent(s[1..], p, q);
    }
  }

  /** Filtering twice with the same predicate is filtering once. */
  lemma FilterIdempotent<T(!new)>(s: seq<T>, p: T -> bool)
    ensures Filter(Filter(s, p), p) == Filter(s, p)
  {
    FilterAllPass(Filter(s, p), p);
  }

  /** `s.find(p)`: the first element satisfying `p`, if any. */
  function FindFirst<T(==,!new)>(s: seq<T>, p: T -> bool): (r: Option<T>)
    ensures r.None? <==> forall x :: x in s ==> !p(x)
    ensures r.Some? ==> exists i :: 0 <= i < |s| && s[i] == r.value && IsFirstMatch(s, p, i)
    decreases |s|
  {
    if s == [] then None
    else if p(s[0]) then (assert IsFirstMatch(s, p, 0); Some(s[0]))
    else
      var r := FindFirst(s[1..], p);
      if r.Some? then
        var i :| 0 <= i < |s| - 1 && s[1..][i] == r.value && IsFirstMatch(s[1..], p, i);
        assert IsFirstMatch(s, p, i + 1);
        r
      else r
  }

  /** Searching a concatenation searches the second part only when the
      first has no match. */
  lemma {:induction false} FindFirstAppend<T(!new)>(s: seq<T>, t: seq<T>, p: T -> bool)
    ensures FindFirst(s + t, p) == if FindFirst(s, p).Some? then FindFirst(s, p) else FindFirst(t, p)
    decreases |s|
  {
    if s == [] {
      assert s + t == t;
    } else {
      assert (s + t)[0] == s[0];
      assert (s + t)[1..] == s[1..] + t;
      FindFirstAppend(s[1..], t, p);
    }
  }

  /** Index `i` holds the first element of `s` that satisfies `p`. */
  predicate IsFirstMatch<T>(s: seq<T>, p: T -> bool, i: int)
  {
    0 <= i < |s| && p(s[i]) && forall j :: 0 <= j < i ==> !p(s[j])
  }

  /** `s.findIndex(p)`: the position of the first element satisfying `p`,
      if any. */
  function FindFirstIndex<T(!new)>(s: seq<T>, p: T -> bool): (r: Option<nat>)
    ensures r.None? <==> forall x :: x in s ==> !p(x)
    ensures r.Some? ==> IsFirstMatch(s, p, r.value)
    decreases |s|
  {
    if s == [] then None
    else if p(s[0]) then Some(0)
    else
      match FindFirstIndex(s[1..], p)
      case None => None
      case Some(i) => assert IsFirstMatch(s, p, i + 1); Some(i + 1)
  }
}

=== FILE: statistics.dfy ===
/** The administrator's statistics page (components/Statistics.tsx): books
    per recommender, sorted by count, the average per user and the top-ten
    leaderboard. */
module Statistics {
  import opened Types
  import opened Seqs
  import opened Api

  /** How many books `userId` recommended. */
  function CountFor(books: seq<Book>, userId: string): (n: nat)
    ensures n <= |books|
    ensures n == 0 <==> forall b :: b in books ==> b.recommenderId != userId
    ensures (forall b :: b in books ==> b.recommenderId == userId) ==> n == |books|
  {
    var p := b => RecommendedBy(userId, b);
    if forall b :: b in books ==> p(b) then
      FilterAllPass(books, p);
      |Filter(books, p)|
    else |Filter(books, p)|
  }

  /** Counting over a book followed by more books. */
  lemma CountCons(b: Book, bs: seq<Book>, userId: string)
    ensures CountFor([b] + bs, userId) == CountFor(bs, userId) + (if b.recommenderId == userId then 1 else 0)
  {
    assert ([b] + bs)[1..] == bs;
  }

  /** `users.map(...)`: each user's name with their book count, in user
      order. */
  function PerUser(users: seq<User>, books: seq<Book>): (r: seq<UserStat>)
    ensures |r| == |users|
    ensures forall i :: 0 <= i < |users| ==> r[i] == UserStat(users[i].name, CountFor(books, users[i].id))
  {
    seq(|users|, i requires 0 <= i < |users| => UserStat(users[i].name, CountFor(books, users[i].id)))
  }

  // ---------------------------------------------------------------- sorting

  predicate IsDescending(s: seq<UserStat>)
  {
    forall i, j :: 0 <= i < j < |s| ==> s[i].count >= s[j].count
  }

  /** Where `x` goes in a list sorted by descending count so that it follows
      every larger count and precedes every count not larger. */
  function InsertPos(x: UserStat, t: seq<UserStat>): (k: nat)
    ensures k <= |t|
    ensures forall i :: 0 <= i < k ==> t[i].count > x.count
    ensures k < |t| ==> t[k].count <= x.count
    decreases |t|
  {
    if t == [] || t[0].count <= x.count then 0
    else 1 + InsertPos(x, t[1..])
  }

  function Insert(x: UserStat, t: seq<UserStat>): (r: seq<UserStat>)
    ensures |r| == |t| + 1
    ensures multiset(r) == multiset(t) + multiset{x}
    ensures IsDescending(t) ==> IsDescending(r)
  {
    var k := InsertPos(x, t);
    InsertFacts(x, t, k);
    t[..k] + [x] + t[k..]
  }

  lemma InsertFacts(x: UserStat, t: seq<UserStat>, k: nat)
    requires k == InsertPos(x, t)
    ensures multiset(t[..k] + [x] + t[k..]) == multiset(t) + multiset{x}
    ensures IsDescending(t) ==> IsDescending(t[..k] + [x] + t[k..])
  {
    assert t == t[..k] + t[k..];
    if IsDescending(t) {
      InsertDescending(x, t[..k], t[k..]);
    }
  }

  /** Putting `x` between a part whose counts all exceed it and a part whose
      counts do not keeps a descending list descending. */
  lemma InsertDescending(x: UserStat, a: seq<UserStat>, b: seq<UserStat>)
    requires IsDescending(a + b)
    requires forall i :: 0 <= i < |a| ==> a[i].count > x.count
    requires b != [] ==> b[0].count <= x.count
    ensures IsDescending(a + [x] + b)
  {
    var r := a + [x] + b;
    assert forall i :: 0 <= i < |b| ==> b[i].count <= x.count by {
      forall i | 0 <= i < |b| ensures b[i].count <= x.count {
        assert (a + b)[|a|] == b[0] && (a + b)[|a| + i] == b[i];
      }
    }
    forall i, j | 0 <= i < j < |r| ensures r[i].count >= r[j].count {
      if j < |a| {
        assert r[i] == (a + b)[i] && r[j] == (a + b)[j];
      } else if i > |a| {
        assert r[i] == (a + b)[i - 1] && r[j] == (a + b)[j - 1];
      }
    }
  }

  /** `.sort((a, b) => b.count - a.count)`: the comparator orders by
      descending count, and `Array.prototype.sort` is stable, so users with
      equal counts keep their order. Modelled as insertion sort. */
  function SortByCount(s: seq<UserStat>): (r: seq<UserStat>)
    ensures |r| == |s|
    ensures multiset(r) == multiset(s)
    ensures IsDescending(r)
    decreases |s|
  {
    if s == [] then []
    else
      assert s == [s[0]] + s[1..];
      Insert(s[0], SortByCount(s[1..]))
  }

  predicate HasCount(c: nat, x: UserStat)
  {
    x.count == c
  }

  function CountIs(c: nat): UserStat -> bool
  {
    x => HasCount(c, x)
  }

  /** The entries with count `c`, in order. */
  function WithCount(s: seq<UserStat>, c: nat): (r: seq<UserStat>)
    ensures forall x :: x in r <==> x in s && x.count == c
  {
    Filter(s, CountIs(c))
  }

  lemma WithCountAround(a: seq<UserStat>, x: UserStat, b: seq<UserStat>, c: nat)
    ensures WithCount(a + [x] + b, c) == WithCount(a, c) + WithCount([x], c) + WithCount(b, c)
    ensures WithCount(a + b, c) == WithCount(a, c) + WithCount(b, c)
  {
    FilterAppend(a + [x], b, CountIs(c));
    FilterAppend(a, [x], CountIs(c));
    FilterAppend(a, b, CountIs(c));
  }

  /** `Insert` splits its list in two around the new entry, every count
      before it larger than its own. */
  lemma InsertSplit(x: UserStat, t: seq<UserStat>) returns (pre: seq<UserStat>, post: seq<UserStat>)
    ensures t == pre + post
    ensures Insert(x, t) == pre + [x] + post
    ensures forall y :: y in pre ==> y.count > x.count
  {
    var k := InsertPos(x, t);
    pre, post := t[..k], t[k..];
    assert t == pre + post;
  }

  /** Inserting leaves the entries of every other count as they were. */
  lemma InsertOtherCount(x: UserStat, t: seq<UserStat>, c: nat)
    requires x.count != c
    ensures WithCount(Insert(x, t), c) == WithCount(t, c)
  {
    var pre, post := InsertSplit(x, t);
    WithCountAround(pre, x, post, c);
  }

  /** Inserting puts `x` in front of the entries of its own count. */
  lemma InsertSameCount(x: UserStat, t: seq<UserStat>, c: nat)
    requires x.count == c
    ensures WithCount(Insert(x, t), c) == [x] + WithCount(t, c)
  {
    var pre, post := InsertSplit(x, t);
    WithCountAround(pre, x, post, c);
    assert WithCount(pre, c) == [] by {
      forall y | y in pre ensures !CountIs(c)(y) {
      }
      FilterNonePass(pre, CountIs(c));
    }
    assert WithCount([x], c) == [x];
    var w := WithCount(post, c);
    assert WithCount(t, c) == w by {
      assert [] + w == w;
    }
    assert [] + [x] + w == [x] + w;
  }

  /** Stability: the entries with any one count appear in the sorted list in
      the order they had before sorting. */
  lemma {:induction false} SortIsStable(s: seq<UserStat>, c: nat)
    ensures WithCount(SortByCount(s), c) == WithCount(s, c)
    decreases |s|
  {
    if s != [] {
      SortIsStable(s[1..], c);
      if s[0].count == c {
        InsertSameCount(s[0], SortByCount(s[1..]), c);
      } else {
        InsertOtherCount(s[0], SortByCount(s[1..]), c);
      }
    }
  }

  function SumCounts(s: seq<UserStat>): nat
    decreases |s|
  {
    if s == [] then 0 else s[0].count + SumCounts(s[1..])
  }

  lemma {:induction false} SumAppend(a: seq<UserStat>, b: seq<UserStat>)
    ensures SumCounts(a + b) == SumCounts(a) + SumCounts(b)
    decreases |a|
  {
    if a == [] {
      assert a + b == b;
    } else {
      assert (a + b)[1..] == a[1..] + b;
      SumAppend(a[1..], b);
    }
  }

  lemma InsertSum(x: UserStat, t: seq<UserStat>)
    ensures SumCounts(Insert(x, t)) == x.count + SumCounts(t)
  {
    var pre, post := InsertSplit(x, t);
    SumAppend(pre + [x], post);
    SumAppend(pre, [x]);
    SumAppend(pre, post);
  }

  /** Sorting moves counts around but keeps their total. */
  lemma {:induction false} SortKeepsSum(s: seq<UserStat>)
    ensures SumCounts(SortByCount(s)) == SumCounts(s)
    decreases |s|
  {
    if s != [] {
      SortKeepsSum(s[1..]);
      InsertSum(s[0], SortByCount(s[1..]));
    }
  }

  // ---------------------------------------------------------------- aggregate

  /** `stats`: the number of users and of books, and one entry per user
      with their book count, largest count first. */
  function Aggregate(users: seq<User>, books: seq<Book>): (r: StatsData)
    ensures r.userCount == |users| && r.bookCount == |books|
    ensures multiset(r.recommendationsPerUser) == multiset(PerUser(users, books))
    ensures IsDescending(r.recommendationsPerUser)
    ensures forall c :: WithCount(r.recommendationsPerUser, c) == WithCount(PerUser(users, books), c)
  {
    var per := PerUser(users, books);
    forall c ensures WithCount(SortByCount(per), c) == WithCount(per, c) {
      SortIsStable(per, c);
    }
    StatsData(|users|, |books|, SortByCount(per))
  }

  /** Every user has an entry with their name and book count. */
  lemma EveryUserListed(users: seq<User>, books: seq<Book>, u: User)
    requires u in users
    ensures UserStat(u.name, CountFor(books, u.id)) in Aggregate(users, books).recommendationsPerUser
  {
    var per := PerUser(users, books);
    var i :| 0 <= i < |users| && users[i] == u;
    assert per[i] in multiset(per);
  }

  predicate DistinctIds(users: seq<User>)
  {
    forall i, j :: 0 <= i < j < |users| ==> users[i].id != users[j].id
  }

  /** The number of users with that id. */
  function UsersWithId(users: seq<User>, id: string): nat
    decreases |users|
  {
    if users == [] then 0
    else (if users[0].id == id then 1 else 0) + UsersWithId(users[1..], id)
  }

  lemma {:induction false} DistinctIdsUnique(users: seq<User>, id: string)
    requires DistinctIds(users)
    ensures UsersWithId(users, id) <= 1
    decreases |users|
  {
    if users != [] {
      DistinctIdsUnique(users[1..], id);
      if users[0].id == id && UsersWithId(users[1..], id) > 0 {
        var j := FindUser(users[1..], id);
      }
    }
  }

  /** A position holding `id`, when some user has it. */
  function FindUser(users: seq<User>, id: string): (j: nat)
    requires UsersWithId(users, id) > 0
    ensures j < |users| && users[j].id == id
    decreases |users|
  {
    if users[0].id == id then 0 else 1 + FindUser(users[1..], id)
  }

  /** One more book adds one to the total for each user with its
      recommender's id. */
  lemma {:induction false} PerUserCons(users: seq<User>, b: Book, bs: seq<Book>)
    ensures SumCounts(PerUser(users, [b] + bs)) == SumCounts(PerUser(users, bs)) + UsersWithId(users, b.recommenderId)
    decreases |users|
  {
    if users != [] {
      PerUserCons(users[1..], b, bs);
      assert PerUser(users, [b] + bs)[1..] == PerUser(users[1..], [b] + bs);
      assert PerUser(users, bs)[1..] == PerUser(users[1..], bs);
      CountCons(b, bs, users[0].id);
    }
  }

  lemma {:induction false} PerUserNoBooks(users: seq<User>)
    ensures SumCounts(PerUser(users, [])) == 0
    decreases |users|
  {
    if users != [] {
      assert PerUser(users, [])[1..] == PerUser(users[1..], []);
      PerUserNoBooks(users[1..]);
    }
  }

  /** With distinct user ids each book is counted at most once. */
  lemma {:induction false} PerUserWithinBooks(users: seq<User>, books: seq<Book>)
    requires DistinctIds(users)
    ensures SumCounts(PerUser(users, books)) <= |books|
    decreases |books|
  {
    if books == [] {
      PerUserNoBooks(users);
    } else {
      PerUserWithinBooks(users, books[1..]);
      assert books == [books[0]] + books[1..];
      PerUserCons(users, books[0], books[1..]);
      DistinctIdsUnique(users, books[0].recommenderId);
    }
  }

  /** So the listed counts add up to at most the number of books. */
  lemma CountsWithinBooks(users: seq<User>, books: seq<Book>)
    requires DistinctIds(users)
    ensures SumCounts(Aggregate(users, books).recommendationsPerUser) <= |books|
  {
    SortKeepsSum(PerUser(users, books));
    PerUserWithinBooks(users, books);
  }

  // ---------------------------------------------------------------- display

  /** The average shown: books per user, and 0 when there are no users
      (no division happens). Rounding to two places is not modelled. */
  function AveragePerUser(st: StatsData): (r: real)
    ensures st.userCount == 0 ==> r == 0.0
    ensures st.userCount > 0 ==> r * st.userCount as real == st.bookCount as real
  {
    if st.userCount > 0 then st.bookCount as real / st.userCount as real else 0.0
  }

  /** No users and no books: zero everywhere, and an average of 0. */
  lemma EmptyAggregate()
    ensures Aggregate([], []) == StatsData(0, 0, [])
    ensures AveragePerUser(Aggregate([], [])) == 0.0
  {
  }

  const LeaderboardSize: nat := 10

  /** `slice(0, 10)`: the first ten entries, or all when there are fewer. */
  function Leaderboard(per: seq<UserStat>): (r: seq<UserStat>)
    ensures |r| <= LeaderboardSize && |r| <= |per|
    ensures |per| <= LeaderboardSize ==> r == per
    ensures |per| > LeaderboardSize ==> |r| == LeaderboardSize
    ensures forall i :: 0 <= i < |r| ==> r[i] == per[i]
  {
    if |per| <= LeaderboardSize then per else per[..LeaderboardSize]
  }

  /** On the sorted list, nobody left off the leaderboard has more books
      than anybody on it. */
  lemma LeaderboardDominates(st: StatsData, x: UserStat, y: UserStat)
    requires IsDescending(st.recommendationsPerUser)
    requires x in Leaderboard(st.recommendationsPerUser)
    requires y in st.recommendationsPerUser && y !in Leaderboard(st.recommendationsPerUser)
    ensures x.count >= y.count
  {
    var per := st.recommendationsPerUser;
    var r := Leaderboard(per);
    var i :| 0 <= i < |r| && r[i] == x;
    var j :| 0 <= j < |per| && per[j] == y;
  }
}

=== FILE: tag_management.dfy ===
/** The administrator's tag page (components/TagManagement.tsx): which
    merged tags count as user-generated, and the add and delete handlers. */
module TagManagement {
  import opened Wrappers
  import opened Types
  import opened Text
  import opened Seqs
  import opened Api
  import TagMap

  /** The lower-cased names of the current system tags. */
  predicate IsSystemName(systemTags: seq<Tag>, name: string)
  {
    exists s :: s in systemTags && Lower(s.name) == Lower(name)
  }

  predicate IsUserGenerated(systemTags: seq<Tag>, t: Tag)
  {
    t.kind == UserTag && !IsSystemName(systemTags, t.name)
  }

  /** `userGeneratedTags`: the merged tags of type user whose lower-cased
      name is not a current system tag's, in their merged order. */
  function UserGeneratedTags(allTags: seq<Tag>, systemTags: seq<Tag>): (r: seq<Tag>)
    ensures IsSubsequence(r, allTags)
    ensures forall t :: t in r ==> t.kind == UserTag
    ensures forall t, s :: t in r && s in systemTags ==> Lower(t.name) != Lower(s.name)
    ensures forall t :: t in allTags && t.kind == UserTag && !IsSystemName(systemTags, t.name) ==> t in r
    ensures forall t :: multiset(r)[t] == if IsUserGenerated(systemTags, t) then multiset(allTags)[t] else 0
  {
    FilterCounts(allTags, t => IsUserGenerated(systemTags, t));
    Filter(allTags, t => IsUserGenerated(systemTags, t))
  }

  /** Leaving tags out never makes two names collide. */
  lemma {:induction false} FilterKeepsDistinct(ts: seq<Tag>, p: Tag -> bool)
    requires TagMap.DistinctKeys(TagMap.Entries(ts))
    ensures TagMap.DistinctKeys(TagMap.Entries(Filter(ts, p)))
    decreases |ts|
  {
    if ts != [] {
      var rest := ts[1..];
      TagMap.DistinctUncons(ts);
      FilterKeepsDistinct(rest, p);
      if p(ts[0]) {
        TagMap.DistinctCons(ts[0], Filter(rest, p));
      }
    }
  }

  /** On the store's own merged tags, every user-generated tag is one some
      book carries, and no two of them share a lower-cased name. */
  lemma UserGeneratedFromBooks(s: Store)
    ensures var r := UserGeneratedTags(GetAllTags(s), s.systemTags);
            && (forall t :: t in r ==> exists b :: b in s.books && t in b.tags)
            && TagMap.DistinctKeys(TagMap.Entries(r))
  {
    var all := GetAllTags(s);
    var r := UserGeneratedTags(all, s.systemTags);
    FilterKeepsDistinct(all, t => IsUserGenerated(s.systemTags, t));
    forall t | t in r ensures exists b :: b in s.books && t in b.tags {
      assert t in all;
    }
  }

  /** A system tag whose name is entered again in another case hides every
      user tag of that name from the list. */
  lemma SystemNameHidesUserTag(allTags: seq<Tag>, systemTags: seq<Tag>, t: Tag, s: Tag)
    requires t in allTags && s in systemTags && Lower(t.name) == Lower(s.name)
    ensures t !in UserGeneratedTags(allTags, systemTags)
  {
  }

  /** The store call `handleAddTag` makes, if any. */
  datatype AddRequest = NoCall | AddCall(name: string)

  /** `handleAddTag`: white-space-only input makes no call; otherwise the
      trimmed name is sent. */
  function HandleAddTag(input: string): (r: AddRequest)
    ensures r.NoCall? <==> IsBlank(input)
    ensures r.AddCall? ==> r.name == Trim(input) && r.name != ""
  {
    var name := Trim(input);
    if name == "" then NoCall else AddCall(name)
  }

  /** The store after the add handler, with `freshId` for the new tag. */
  function AddTag(s: Store, input: string, freshId: string): (r: Store)
    ensures IsBlank(input) ==> r == s
    ensures !IsBlank(input) ==> r.systemTags == s.systemTags + [Tag(freshId, Trim(input), SystemTag)]
    ensures r.books == s.books && r.users == s.users
  {
    match HandleAddTag(input)
    case NoCall => s
    case AddCall(name) => AddSystemTag(s, name, freshId).0
  }

  /** Once added, a non-blank name no longer appears among the user-
      generated tags, whatever its padding or case. */
  lemma AddedNameIsSystem(s: Store, input: string, freshId: string, t: Tag)
    requires !IsBlank(input) && Lower(t.name) == Lower(Trim(input))
    ensures var s' := AddTag(s, input, freshId);
            t !in UserGeneratedTags(GetAllTags(s'), s'.systemTags)
  {
    var s' := AddTag(s, input, freshId);
    var added := Tag(freshId, Trim(input), SystemTag);
    assert added == s'.systemTags[|s'.systemTags| - 1];
    assert IsSystemName(s'.systemTags, t.name);
  }

  /** `handleDeleteTag`: the tag with `tagId` is deleted only when the
      administrator confirms. */
  function HandleDeleteTag(s: Store, tagId: string, confirmed: bool): (r: Store)
    ensures !confirmed ==> r == s
    ensures confirmed ==> forall t :: t in r.systemTags <==> t in s.systemTags && t.id != tagId
    ensures confirmed ==> r == DeleteSystemTag(s, tagId)
    ensures r.books == s.books && r.users == s.users
  {
    if confirmed then DeleteSystemTag(s, tagId) else s
  }
}

=== FILE: tag_map.dfy ===
/** The de-duplication `getAllTags` performs with a JavaScript `Map` keyed
    by lower-cased tag name (services/api.ts:142-146).

    A JavaScript `Map` remembers the order in which keys were FIRST inserted;
    `set` on a key already present replaces its value in place. The model
    keeps the map as a list of entries with distinct keys, and `Reconcile`
    inserts every tag in turn and reads the values back in key order. */
module TagMap {
  import opened Types
  import opened Text

  /** The key a tag is filed under: its lower-cased name. */
  function Key(t: Tag): string
  {
    Lower(t.name)
  }

  /** A tag with its key, as handed to `Map.prototype.set`. */
  datatype Entry = Entry(key: string, value: Tag)

  /** The (key, tag) pairs `getAllTags` inserts, in order. */
  function Entries(ts: seq<Tag>): (es: seq<Entry>)
    ensures |es| == |ts|
    ensures forall i :: 0 <= i < |ts| ==> es[i] == Entry(Key(ts[i]), ts[i])
  {
    seq(|ts|, i requires 0 <= i < |ts| => Entry(Key(ts[i]), ts[i]))
  }

  function Values(m: seq<Entry>): (r: seq<Tag>)
    ensures |r| == |m|
    ensures forall i :: 0 <= i < |m| ==> r[i] == m[i].value
  {
    seq(|m|, i requires 0 <= i < |m| => m[i].value)
  }

  predicate HasKey(es: seq<Entry>, k: string)
  {
    exists i :: 0 <= i < |es| && es[i].key == k
  }

  predicate DistinctKeys(es: seq<Entry>)
  {
    forall i, j :: 0 <= i < j < |es| ==> es[i].key != es[j].key
  }

  /** Where a key first occurs. */
  function FirstIndexOf(es: seq<Entry>, k: string): (i: nat)
    requires HasKey(es, k)
    ensures i < |es| && es[i].key == k
    ensures forall j :: 0 <= j < i ==> es[j].key != k
    decreases |es|
  {
    if es[0].key == k then 0
    else
      assert HasKey(es[1..], k) by {
        var i :| 0 <= i < |es| && es[i].key == k;
        assert es[1..][i - 1].key == k;
      }
      1 + FirstIndexOf(es[1..], k)
  }

  /** The tag last inserted under a key. */
  function LastValueOf(es: seq<Entry>, k: string): (t: Tag)
    requires HasKey(es, k)
    ensures exists i :: 0 <= i < |es| && es[i] == Entry(k, t) && forall j :: i < j < |es| ==> es[j].key != k
    decreases |es|
  {
    var n := |es| - 1;
    if es[n].key == k then es[n].value
    else
      assert HasKey(es[..n], k) by {
        var i :| 0 <= i < |es| && es[i].key == k;
        assert es[..n][i].key == k;
      }
      var t := LastValueOf(es[..n], k);
      var i :| 0 <= i < n && es[..n][i] == Entry(k, t) && forall j :: i < j < n ==> es[..n][j].key != k;
      assert es[i] == Entry(k, t) && forall j :: i < j < |es| ==> es[j].key != k;
      t
  }

  /** Past a first entry with another key, a key is held iff the rest holds
      it. */
  lemma HasKeyTail(m: seq<Entry>, k: string)
    requires m != [] && m[0].key != k
    ensures HasKey(m, k) <==> HasKey(m[1..], k)
  {
    if HasKey(m, k) {
      var i :| 0 <= i < |m| && m[i].key == k;
      assert m[1..][i - 1].key == k;
    }
    if HasKey(m[1..], k) {
      var i :| 0 <= i < |m| - 1 && m[1..][i].key == k;
      assert m[i + 1].key == k;
    }
  }

  lemma DistinctTail(m: seq<Entry>)
    requires m != [] && DistinctKeys(m)
    ensures DistinctKeys(m[1..])
    ensures forall i :: 0 < i < |m| ==> m[i].key != m[0].key
  {
    forall i, j | 0 <= i < j < |m| - 1 ensures m[1..][i].key != m[1..][j].key {
      assert m[1..][i] == m[i + 1] && m[1..][j] == m[j + 1];
    }
  }

  /** `Map.prototype.set`: replace the value of a key in place, or append a
      new key at the end. */
  function Set(m: seq<Entry>, e: Entry): (r: seq<Entry>)
    ensures HasKey(m, e.key) ==> |r| == |m|
    ensures !HasKey(m, e.key) ==> r == m + [e]
    ensures DistinctKeys(m) ==>
              forall i :: 0 <= i < |m| ==> r[i] == (if m[i].key == e.key then e else m[i])
    decreases |m|
  {
    if m == [] then [e]
    else if m[0].key == e.key then
      assert HasKey(m, e.key);
      if DistinctKeys(m) then DistinctTail(m); [e] + m[1..] else [e] + m[1..]
    else
      var rest := Set(m[1..], e);
      HasKeyTail(m, e.key);
      if DistinctKeys(m) then DistinctTail(m); [m[0]] + rest
      else if !HasKey(m, e.key) then
        assert [m[0]] + (m[1..] + [e]) == m + [e];
        [m[0]] + rest
      else [m[0]] + rest
  }

  /** The map after `set` of every entry of `es`, first to last. */
  function Build(es: seq<Entry>): seq<Entry>
    decreases |es|
  {
    if es == [] then []
    else
      var n := |es| - 1;
      Set(Build(es[..n]), es[n])
  }

  /** What a map built from `es` holds: distinct keys, exactly those of
      `es`, in order of first occurrence, each with the last value set under
      that key. */
  ghost predicate Shaped(es: seq<Entry>, m: seq<Entry>)
  {
    && DistinctKeys(m)
    && (forall k :: HasKey(m, k) <==> HasKey(es, k))
    && (forall i :: 0 <= i < |m| ==> HasKey(es, m[i].key) && m[i].value == LastValueOf(es, m[i].key))
    && (forall i, j :: 0 <= i < j < |m| ==> FirstIndexOf(es, m[i].key) < FirstIndexOf(es, m[j].key))
  }

  /** Inside a prefix that already holds the key, its first index is the
      same as in the whole sequence. */
  lemma FirstIndexInPrefix(es: seq<Entry>, n: nat, k: string)
    requires n <= |es| && HasKey(es[..n], k)
    ensures HasKey(es, k)
    ensures FirstIndexOf(es, k) == FirstIndexOf(es[..n], k) < n
  {
    var j := FirstIndexOf(es[..n], k);
    assert es[j].key == k;
  }

  lemma HasKeySnoc(es: seq<Entry>, k: string)
    requires es != []
    ensures HasKey(es, k) <==> HasKey(es[..|es| - 1], k) || k == es[|es| - 1].key
  {
    var n := |es| - 1;
    if HasKey(es, k) && k != es[n].key {
      var i :| 0 <= i < |es| && es[i].key == k;
      assert es[..n][i].key == k;
    }
    if HasKey(es[..n], k) {
      var i :| 0 <= i < n && es[..n][i].key == k;
      assert es[i].key == k;
    }
  }

  lemma LastValueSnoc(es: seq<Entry>, k: string)
    requires es != [] && HasKey(es[..|es| - 1], k) && k != es[|es| - 1].key
    ensures HasKey(es, k)
    ensures LastValueOf(es, k) == LastValueOf(es[..|es| - 1], k)
  {
    HasKeySnoc(es, k);
  }

  lemma FirstIndexNew(es: seq<Entry>)
    requires es != [] && !HasKey(es[..|es| - 1], es[|es| - 1].key)
    ensures HasKey(es, es[|es| - 1].key)
    ensures FirstIndexOf(es, es[|es| - 1].key) == |es| - 1
  {
    var n := |es| - 1;
    HasKeySnoc(es, es[n].key);
    forall i | 0 <= i < n ensures es[i].key != es[n].key {
      assert es[..n][i] == es[i];
    }
  }

  /** Setting a key the map already holds. */
  lemma SetExistingShaped(es: seq<Entry>, m: seq<Entry>)
    requires es != [] && Shaped(es[..|es| - 1], m)
    requires HasKey(m, es[|es| - 1].key)
    ensures Shaped(es, Set(m, es[|es| - 1]))
  {
    var r := Set(m, es[|es| - 1]);
    SetKeepsKeys(m, es[|es| - 1]);
    SetExistingKeys(es, m, r);
    SetExistingValues(es, m, r);
    SetExistingOrder(es, m, r);
  }

  /** Setting a key the map holds leaves every key in its place. */
  lemma SetKeepsKeys(m: seq<Entry>, e: Entry)
    requires DistinctKeys(m) && HasKey(m, e.key)
    ensures |Set(m, e)| == |m| && forall i :: 0 <= i < |m| ==> Set(m, e)[i].key == m[i].key
    ensures DistinctKeys(Set(m, e))
  {
    var r := Set(m, e);
    assert forall i :: 0 <= i < |m| ==> r[i].key == m[i].key;
  }

  lemma SetExistingOrder(es: seq<Entry>, m: seq<Entry>, r: seq<Entry>)
    requires es != [] && Shaped(es[..|es| - 1], m)
    requires |r| == |m| && forall i :: 0 <= i < |r| ==> r[i].key == m[i].key
    ensures forall i :: 0 <= i < |r| ==> HasKey(es, r[i].key)
    ensures forall i, j :: 0 <= i < j < |r| ==> FirstIndexOf(es, r[i].key) < FirstIndexOf(es, r[j].key)
  {
    forall i | 0 <= i < |r| ensures HasKey(es, r[i].key) {
      OldKeyFirstIndex(es, m, i);
    }
    forall i, j | 0 <= i < j < |r| ensures FirstIndexOf(es, r[i].key) < FirstIndexOf(es, r[j].key) {
      OldKeysOrdered(es, m, i, j);
    }
  }

  lemma SetExistingKeys(es: seq<Entry>, m: seq<Entry>, r: seq<Entry>)
    requires es != [] && Shaped(es[..|es| - 1], m)
    requires HasKey(m, es[|es| - 1].key)
    requires |r| == |m| && forall i :: 0 <= i < |r| ==> r[i].key == m[i].key
    ensures forall k :: HasKey(r, k) <==> HasKey(es, k)
  {
    forall k ensures HasKey(r, k) <==> HasKey(es, k) {
      HasKeySnoc(es, k);
      if HasKey(r, k) {
        var i :| 0 <= i < |r| && r[i].key == k;
        assert m[i].key == k;
      }
      if HasKey(m, k) {
        var i :| 0 <= i < |m| && m[i].key == k;
        assert r[i].key == k;
      }
    }
  }

  lemma SetExistingValues(es: seq<Entry>, m: seq<Entry>, r: seq<Entry>)
    requires es != [] && Shaped(es[..|es| - 1], m)
    requires |r| == |m|
    requires forall i :: 0 <= i < |m| ==> r[i] == (if m[i].key == es[|es| - 1].key then es[|es| - 1] else m[i])
    ensures forall i :: 0 <= i < |r| ==> HasKey(es, r[i].key) && r[i].value == LastValueOf(es, r[i].key)
  {
    forall i | 0 <= i < |r| ensures HasKey(es, r[i].key) && r[i].value == LastValueOf(es, r[i].key) {
      EntryAfterSet(es, m, i, r[i]);
    }
  }

  /** An entry of the map after the last `set` holds the last value of its
      key. */
  lemma EntryAfterSet(es: seq<Entry>, m: seq<Entry>, i: nat, x: Entry)
    requires es != [] && Shaped(es[..|es| - 1], m) && i < |m|
    requires x == (if m[i].key == es[|es| - 1].key then es[|es| - 1] else m[i])
    ensures HasKey(es, x.key) && x.value == LastValueOf(es, x.key)
  {
    HasKeySnoc(es, x.key);
    if m[i].key != es[|es| - 1].key {
      LastValueSnoc(es, x.key);
    }
  }

  /** Setting a key the map does not hold yet. */
  lemma SetNewShaped(es: seq<Entry>, m: seq<Entry>)
    requires es != [] && Shaped(es[..|es| - 1], m)
    requires !HasKey(m, es[|es| - 1].key)
    ensures Shaped(es, Set(m, es[|es| - 1]))
  {
    var n := |es| - 1;
    var r := Set(m, es[n]);
    assert r == m + [es[n]];
    SetNewKeys(es, m, r);
    SetNewValues(es, m, r);
    SetNewOrder(es, m, r);
  }

  lemma SetNewKeys(es: seq<Entry>, m: seq<Entry>, r: seq<Entry>)
    requires es != [] && Shaped(es[..|es| - 1], m)
    requires !HasKey(m, es[|es| - 1].key) && r == m + [es[|es| - 1]]
    ensures forall k :: HasKey(r, k) <==> HasKey(es, k)
  {
    var e := es[|es| - 1];
    forall k ensures HasKey(r, k) <==> HasKey(es, k) {
      HasKeySnoc(es, k);
      if HasKey(r, k) {
        var i :| 0 <= i < |r| && r[i].key == k;
        if i < |m| {
          assert m[i].key == k;
        }
      }
      if HasKey(m, k) {
        var i :| 0 <= i < |m| && m[i].key == k;
        assert r[i].key == k;
      }
      if k == e.key {
        assert r[|m|].key == k;
      }
    }
  }

  lemma SetNewValues(es: seq<Entry>, m: seq<Entry>, r: seq<Entry>)
    requires es != [] && Shaped(es[..|es| - 1], m)
    requires !HasKey(m, es[|es| - 1].key) && r == m + [es[|es| - 1]]
    ensures forall i :: 0 <= i < |r| ==> HasKey(es, r[i].key) && r[i].value == LastValueOf(es, r[i].key)
  {
    forall i | 0 <= i < |r| ensures HasKey(es, r[i].key) && r[i].value == LastValueOf(es, r[i].key) {
      HasKeySnoc(es, r[i].key);
      if i < |m| {
        LastValueSnoc(es, r[i].key);
      }
    }
  }

  /** A key of the map built so far keeps its first index once one more
      entry follows, and that index lies before the new entry. */
  lemma OldKeyFirstIndex(es: seq<Entry>, m: seq<Entry>, i: nat)
    requires es != [] && Shaped(es[..|es| - 1], m) && i < |m|
    ensures HasKey(es, m[i].key)
    ensures FirstIndexOf(es, m[i].key) == FirstIndexOf(es[..|es| - 1], m[i].key) < |es| - 1
  {
    assert HasKey(m, m[i].key);
    FirstIndexInPrefix(es, |es| - 1, m[i].key);
  }

  /** Two keys of the map built so far keep their order. */
  lemma OldKeysOrdered(es: seq<Entry>, m: seq<Entry>, i: nat, j: nat)
    requires es != [] && Shaped(es[..|es| - 1], m) && i < j < |m|
    ensures HasKey(es, m[i].key) && HasKey(es, m[j].key)
    ensures FirstIndexOf(es, m[i].key) < FirstIndexOf(es, m[j].key)
  {
    OldKeyFirstIndex(es, m, i);
    OldKeyFirstIndex(es, m, j);
  }

  /** A key of the map built so far comes before a key seen first in the
      last entry. */
  lemma OldKeyBeforeNew(es: seq<Entry>, m: seq<Entry>, i: nat)
    requires es != [] && Shaped(es[..|es| - 1], m) && i < |m|
    requires !HasKey(m, es[|es| - 1].key)
    ensures HasKey(es, m[i].key) && HasKey(es, es[|es| - 1].key)
    ensures FirstIndexOf(es, m[i].key) < FirstIndexOf(es, es[|es| - 1].key)
  {
    OldKeyFirstIndex(es, m, i);
    FirstIndexNew(es);
  }

  lemma SetNewOrder(es: seq<Entry>, m: seq<Entry>, r: seq<Entry>)
    requires es != [] && Shaped(es[..|es| - 1], m)
    requires !HasKey(m, es[|es| - 1].key) && r == m + [es[|es| - 1]]
    ensures forall i :: 0 <= i < |r| ==> HasKey(es, r[i].key)
    ensures forall i, j :: 0 <= i < j < |r| ==> FirstIndexOf(es, r[i].key) < FirstIndexOf(es, r[j].key)
  {
    var n := |es| - 1;
    forall i | 0 <= i < |r| ensures HasKey(es, r[i].key) {
      if i < |m| {
        OldKeyFirstIndex(es, m, i);
      } else {
        FirstIndexNew(es);
      }
    }
    forall i, j | 0 <= i < j < |r| ensures FirstIndexOf(es, r[i].key) < FirstIndexOf(es, r[j].key) {
      if j < |m| {
        assert r[i] == m[i] && r[j] == m[j];
        OldKeysOrdered(es, m, i, j);
      } else {
        assert r[i] == m[i] && r[j] == es[n];
        OldKeyBeforeNew(es, m, i);
      }
    }
  }

  lemma {:induction false} BuildShape(es: seq<Entry>)
    ensures Shaped(es, Build(es))
    decreases |es|
  {
    if es != [] {
      var n := |es| - 1;
      BuildShape(es[..n]);
      if HasKey(Build(es[..n]), es[n].key) {
        SetExistingShaped(es, Build(es[..n]));
      } else {
        SetNewShaped(es, Build(es[..n]));
      }
    }
  }

  /** A map built from entries whose keys are already distinct holds them
      as they are. */
  lemma {:induction false} BuildDistinct(es: seq<Entry>)
    requires DistinctKeys(es)
    ensures Build(es) == es
    decreases |es|
  {
    if es != [] {
      var n := |es| - 1;
      var init := es[..n];
      assert DistinctKeys(init) by {
        forall i, j | 0 <= i < j < n ensures init[i].key != init[j].key {
          assert init[i] == es[i] && init[j] == es[j];
        }
      }
      BuildDistinct(init);
      assert !HasKey(init, es[n].key) by {
        forall i | 0 <= i < n ensures init[i].key != es[n].key {
          assert init[i] == es[i];
        }
      }
      assert init + [es[n]] == es;
    }
  }

  /** A tag whose key no tag of `rest` has can go in front of `rest`
      without a clash. */
  lemma DistinctCons(t: Tag, rest: seq<Tag>)
    requires DistinctKeys(Entries(rest))
    requires forall u :: u in rest ==> Key(u) != Key(t)
    ensures DistinctKeys(Entries([t] + rest))
  {
    var s := [t] + rest;
    forall i, j | 0 <= i < j < |s| ensures Entries(s)[i].key != Entries(s)[j].key {
      if i == 0 {
        assert s[j] == rest[j - 1] && rest[j - 1] in rest;
      } else {
        assert s[i] == rest[i - 1] && s[j] == rest[j - 1];
        assert Entries(rest)[i - 1].key != Entries(rest)[j - 1].key;
      }
    }
  }

  /** Dropping the first tag keeps the keys distinct, and no later tag has
      the first one's key. */
  lemma DistinctUncons(ts: seq<Tag>)
    requires ts != [] && DistinctKeys(Entries(ts))
    ensures DistinctKeys(Entries(ts[1..]))
    ensures forall u :: u in ts[1..] ==> Key(u) != Key(ts[0])
  {
    var rest := ts[1..];
    forall i, j | 0 <= i < j < |rest| ensures Entries(rest)[i].key != Entries(rest)[j].key {
      assert Entries(ts)[i + 1].key != Entries(ts)[j + 1].key;
    }
    forall u | u in rest ensures Key(u) != Key(ts[0]) {
      var k :| 0 <= k < |rest| && rest[k] == u;
      assert Entries(ts)[0].key != Entries(ts)[k + 1].key;
    }
  }

  /** `getAllTags`' de-duplication (services/api.ts:142-146): one tag per
      distinct lower-cased name of `ts`, none lost, each at the position
      where its name first occurs, holding the LAST tag of `ts` with that
      name. */
  function Reconcile(ts: seq<Tag>): (r: seq<Tag>)
    ensures DistinctKeys(Entries(r))
    ensures forall k :: HasKey(Entries(r), k) <==> HasKey(Entries(ts), k)
    ensures forall i :: 0 <= i < |r| ==> HasKey(Entries(ts), Key(r[i])) && r[i] == LastValueOf(Entries(ts), Key(r[i]))
    ensures forall i, j :: 0 <= i < j < |r| ==>
              FirstIndexOf(Entries(ts), Key(r[i])) < FirstIndexOf(Entries(ts), Key(r[j]))
    ensures forall t :: t in r ==> t in ts
  {
    var es := Entries(ts);
    var m := Build(es);
    BuildShape(es);
    ValuesOfShaped(es, m);
    ValuesFromInput(ts, m);
    Values(m)
  }

  /** Every value of a map built from `ts` is one of the tags of `ts`. */
  lemma ValuesFromInput(ts: seq<Tag>, m: seq<Entry>)
    requires Shaped(Entries(ts), m)
    ensures forall t :: t in Values(m) ==> t in ts
  {
    var es := Entries(ts);
    var r := Values(m);
    forall t | t in r ensures t in ts {
      var i :| 0 <= i < |r| && r[i] == t;
      var j :| 0 <= j < |es| && es[j] == Entry(m[i].key, LastValueOf(es, m[i].key));
      assert ts[j] == t;
    }
  }

  /** In a shaped map each entry's key is its value's key. */
  lemma ValuesOfShaped(es: seq<Entry>, m: seq<Entry>)
    requires forall i :: 0 <= i < |es| ==> es[i].key == Key(es[i].value)
    requires Shaped(es, m)
    ensures Entries(Values(m)) == m
  {
    forall i | 0 <= i < |m| ensures Entries(Values(m))[i] == m[i] {
      var t := LastValueOf(es, m[i].key);
      var j :| 0 <= j < |es| && es[j] == Entry(m[i].key, t) && forall l :: j < l < |es| ==> es[l].key != m[i].key;
    }
  }

  /** Tags whose names are already distinct up to case come back unchanged. */
  lemma ReconcileDistinctIsIdentity(ts: seq<Tag>)
    requires DistinctKeys(Entries(ts))
    ensures Reconcile(ts) == ts
  {
    BuildDistinct(Entries(ts));
  }

  /** Reconciling a reconciled list changes nothing. */
  lemma ReconcileIdempotent(ts: seq<Tag>)
    ensures Reconcile(Reconcile(ts)) == Reconcile(ts)
  {
    ReconcileDistinctIsIdentity(Reconcile(ts));
  }

  /** A user tag named like a system tag up to case replaces it, at the
      system tag's position. */
  lemma ReconcileOverride()
    ensures Reconcile([Tag("tag-1", "Fiction", SystemTag), Tag("user-tag-1", "fiction", UserTag)])
            == [Tag("user-tag-1", "fiction", UserTag)]
  {
    var a := Tag("tag-1", "Fiction", SystemTag);
    var b := Tag("user-tag-1", "fiction", UserTag);
    assert Key(a) == Key(b) by {
      assert Lower("Fiction") == "fiction";
    }
    var es := Entries([a, b]);
    assert es[..1] == [Entry(Key(a), a)];
    assert Build(es[..1]) == [Entry(Key(a), a)];
    assert HasKey(Build(es[..1]), Key(b)) by {
      assert Build(es[..1])[0].key == Key(b);
    }
  }
}

=== FILE: text.dfy ===
/** The string primitives the application relies on: `toLowerCase`,
    `trim` and `includes`.

    `toLowerCase` is modelled on ASCII letters only; every other character
    (all of the application's Chinese text among them) is left as it is.
    `trim` removes exactly the code points ECMAScript classes as WhiteSpace
    or LineTerminator. */
module Text {

  /** ECMAScript WhiteSpace and LineTerminator code points. */
  predicate IsSpace(c: char)
  {
    var n := c as int;
    n == 0x09 || n == 0x0A || n == 0x0B || n == 0x0C || n == 0x0D || n == 0x20
    || n == 0xA0 || n == 0x1680 || (0x2000 <= n <= 0x200A) || n == 0x2028
    || n == 0x2029 || n == 0x202F || n == 0x205F || n == 0x3000 || n == 0xFEFF
  }

  /** True iff every character of `s` is white space (so also for ""). */
  predicate IsBlank(s: string)
  {
    forall i :: 0 <= i < |s| ==> IsSpace(s[i])
  }

  function LowerChar(c: char): (r: char)
    ensures 'A' <= c <= 'Z' ==> r as int == c as int + 32
    ensures !('A' <= c <= 'Z') ==> r == c
    ensures !('A' <= r <= 'Z')
  {
    if 'A' <= c <= 'Z' then (c as int + 32) as char else c
  }

  /** `toLowerCase`, ASCII letters only. */
  function Lower(s: string): (r: string)
    ensures |r| == |s|
    ensures forall i :: 0 <= i < |s| ==> r[i] == LowerChar(s[i])
  {
    seq(|s|, i requires 0 <= i < |s| => LowerChar(s[i]))
  }

  lemma LowerIdempotent(s: string)
    ensures Lower(Lower(s)) == Lower(s)
  {
  }

  lemma LowerEmpty(s: string)
    ensures Lower(s) == "" <==> s == ""
  {
  }

  /** Drops leading white space. */
  function TrimStart(s: string): (r: string)
    ensures |r| <= |s| && r == s[|s| - |r|..]
    ensures forall i :: 0 <= i < |s| - |r| ==> IsSpace(s[i])
    ensures r == [] || !IsSpace(r[0])
  {
    if s != [] && IsSpace(s[0]) then TrimStart(s[1..]) else s
  }

  /** Drops trailing white space. */
  function TrimEnd(s: string): (r: string)
    ensures |r| <= |s| && r == s[..|r|]
    ensures forall i :: |r| <= i < |s| ==> IsSpace(s[i])
    ensures r == [] || !IsSpace(r[|r| - 1])
  {
    if s != [] && IsSpace(s[|s| - 1]) then TrimEnd(s[..|s| - 1]) else s
  }

  /** `String.prototype.trim`. */
  function Trim(s: string): (r: string)
    ensures r == "" <==> IsBlank(s)
    ensures r != "" ==> !IsSpace(r[0]) && !IsSpace(r[|r| - 1])
    ensures Contains(s, r)
    ensures Pads(s, r)
  {
    TrimFacts(s);
    TrimEnd(TrimStart(s))
  }

  /** The postconditions of `Trim`, for its body. */
  lemma TrimFacts(s: string)
    ensures var r := TrimEnd(TrimStart(s));
            && (r == "" <==> IsBlank(s))
            && (r != "" ==> !IsSpace(r[0]) && !IsSpace(r[|r| - 1]))
            && Contains(s, r)
            && Pads(s, r)
  {
    TrimBlank(s);
    TrimInside(s);
    PadsContains(s, TrimEnd(TrimStart(s)));
  }

  /** Padding `r` leaves it a contiguous part of the result. */
  lemma PadsContains(s: string, r: string)
    requires Pads(s, r)
    ensures Contains(s, r)
  {
  }

  /** Text with no white space at either end is its own trim. */
  lemma TrimUnpadded(s: string)
    requires s != "" && !IsSpace(s[0]) && !IsSpace(s[|s| - 1])
    ensures Trim(s) == s
  {
  }

  /** `s` is `r` with nothing but white space before and after it. */
  predicate Pads(s: string, r: string)
  {
    exists k :: 0 <= k <= |s| - |r| && OccursAt(s, r, k) && IsBlank(s[..k]) && IsBlank(s[k + |r|..])
  }

  /** What trimming leaves is a contiguous part of the input with only
      white space before and after it. */
  lemma TrimInside(s: string)
    ensures Pads(s, TrimEnd(TrimStart(s)))
  {
    var a := TrimStart(s);
    var r := TrimEnd(a);
    var k := |s| - |a|;
    assert OccursAt(s, r, k) by {
      assert s[k..k + |r|] == a[..|r|];
    }
    assert IsBlank(s[..k]) by {
      LeadingBlank(s);
    }
    assert IsBlank(s[k + |r|..]) by {
      TrailingBlank(a);
      assert s[k + |r|..] == a[|r|..];
    }
  }

  /** What `TrimStart` drops is white space. */
  lemma LeadingBlank(s: string)
    ensures IsBlank(s[..|s| - |TrimStart(s)|])
  {
  }

  /** What `TrimEnd` drops is white space. */
  lemma TrailingBlank(s: string)
    ensures IsBlank(s[|TrimEnd(s)|..])
  {
  }

  /** Trimming removes exactly the white space around a text that neither
      starts nor ends with white space. */
  lemma TrimPadded(a: string, m: string, b: string)
    requires IsBlank(a) && IsBlank(b)
    requires m != "" && !IsSpace(m[0]) && !IsSpace(m[|m| - 1])
    ensures Trim(a + m + b) == m
  {
    var s := a + m + b;
    assert forall i :: 0 <= i < |a| ==> s[i] == a[i];
    assert s[|a|] == m[0];
    var t := TrimStart(s);
    assert |s| - |t| == |a|;
    assert t == m + b;
    assert forall i :: |m| <= i < |t| ==> t[i] == b[i - |m|];
    assert t[|m| - 1] == m[|m| - 1];
    assert |TrimEnd(t)| == |m|;
  }

  lemma TrimBlank(s: string)
    ensures TrimEnd(TrimStart(s)) == "" <==> IsBlank(s)
  {
    // When the trimmed string is empty, TrimStart must already have consumed
    // everything: a non-empty remainder would start with a non-space that
    // TrimEnd keeps.
  }

  /** `h` holds `n` starting at index `i`. */
  predicate OccursAt(h: string, n: string, i: int)
  {
    0 <= i && i + |n| <= |h| && h[i..i + |n|] == n
  }

  /** `h.includes(n)`: `n` is a contiguous part of `h` (the empty string is
      part of every string). */
  predicate Contains(h: string, n: string)
  {
    exists i :: 0 <= i <= |h| - |n| && OccursAt(h, n, i)
  }

  lemma ContainsEmpty(h: string)
    ensures Contains(h, "")
  {
    assert OccursAt(h, "", 0);
  }

  /** A needle longer than the haystack is never found. */
  lemma ContainsNoLonger(h: string, n: string)
    requires Contains(h, n)
    ensures |n| <= |h|
  {
  }
}

=== FILE: types.dfy ===
/** The application's record shapes (types.ts). */
module Types {
  import opened Wrappers

  /** A tag is either curated by an administrator or typed in by a
      recommender. */
  datatype TagType = SystemTag | UserTag

  datatype Tag = Tag(id: string, name: string, kind: TagType)

  datatype Role = UserRole | AdminRole

  datatype User = User(
    id: string,
    name: string,
    major: string,
    phone: string,
    email: string,
    expertise: string,
    role: Role,
    uniqueLink: string)

  /** A book owns a snapshot of its tags; `coverUrl` is its only optional
      field. */
  datatype Book = Book(
    id: string,
    title: string,
    author: string,
    publisher: string,
    isbn: string,
    publishDate: string,
    reason: string,
    tags: seq<Tag>,
    coverUrl: Option<string>,
    recommenderId: string,
    recommenderName: string)

  /** What the cover-recognition service extracted; every field may be
      missing on its own. */
  datatype AIBookInfo = AIBookInfo(
    title: Option<string>,
    author: Option<string>,
    publisher: Option<string>,
    isbn: Option<string>)

  datatype UserStat = UserStat(name: string, count: nat)

  datatype StatsData = StatsData(
    userCount: nat,
    bookCount: nat,
    recommendationsPerUser: seq<UserStat>)
}

=== FILE: wrappers.dfy ===
/** Option and Result, the shapes the model uses for JavaScript's `null`
    results and thrown errors. */
module Wrappers {

  datatype Option<+T> = None | Some(value: T) {

    /** The wrapped value, or `default` when there is none. */
    function GetOr(default: T): T
    {
      match this
      case Some(v) => v
      case None => default
    }
  }

  datatype Result<+R, +E> = Success(value: R) | Failure(error: E)
}
